=== FILE: README.md ===
# httplog in Dafny

`httplog` wraps Go HTTP handlers. A handler returns a response value (a body,
a status and extra headers) and an error. `Server.Handle` turns that value into
bytes on the connection and writes one structured log line per request. On the
way it:

- refuses requests once the server is shutting down;
- recovers from handler panics;
- JSON-encodes bodies that are neither strings nor byte slices;
- gzips large bodies for clients whose `Accept-Encoding` admits gzip.

When no logging back end is configured, a small fallback logger builds the log
line itself. The vendored `logrjack` package is the logrus-backed logger, and
it shares the callstack and caller-shortening code.

This project models that core as pure functions over immutable data:

| module | file | what it models |
|---|---|---|
| `Maybe`, `Strings` | strings.dfy | Go's `nil`-able values; the `strings.TrimSpace`, `strings.Join`, `HasPrefix`/`HasSuffix` and `%d` pieces the rest uses |
| `AcceptEncoding` | accept_encoding.dfy | `acceptsGzip` twice: a functional reading over comma-separated segments, and an imperative scan with the same `i`/`j`/`k` indices and `skipSpaces` loop; proved equal, with every byte access in bounds |
| `ConnectionGate` | connection_gate.dfy | the `{stopped, openConnections}` pair as a sequential state machine: admit, release, shutdown, the 30 s default deadline |
| `Dispatch` | dispatch.dfy | `Server.Handle`, `writeHeaderBody` and `WriteHTTPLog` as one pure function from the request, the handler's outcome, the encoder's result and the write result to the status, headers, wire bytes, log record and gate operations |
| `LogLine` | log_line.dfy | the fallback logger's `AddField`, `AddFields`, level methods and `Write` line format |
| `ErrorStack` | error_stack.dfy | fallbackLogger.go's `AddError`: the `err` field, then an optional `stacktrace` field |
| `Callers` | callers.dfy | `getCaller` path shortening and the `AddCallstack` walk, filter and join |
| `Logrjack` | logrjack.dfy | entry.go's `AddField`, `AddFields` and `AddCallstack` as updates of a logrus field map |

fallbackLogger.go and fallback_logger.go both define a `fallbackLogger` type.
Their `AddField`, `AddFields` and level methods have the same text, and so
does `Write` up to its final print call (`logPrint(msg)` in one file,
`log.Print(msg)` in the other). Both hand the line to Go's `log` package:
`logPrint` is `log.Print` unless a test replaces it. The `log` package's date
and time prefix and trailing newline are not part of the modelled line. One module,
`LogLine`, models that shared part. Each file's own member is
in its own module:

- fallbackLogger.go's `AddError` is in `ErrorStack`.
- fallback_logger.go's `AddCallstack` and `getCaller` are in `Callers`.

The vendored entry.go has the same `getCaller` and the same `AddCallstack`
loop as fallback_logger.go. So `Logrjack` reuses `Callers` and stores the
joined callstack in a field map instead of in a string.

Four places where the model follows the code and not the documentation or the tests:

- **Log level.** The comment above `WriteHTTPLog` (server.go:233-237) gives the
  level from the status alone. The code also looks at the error: a status
  below 400 with an error logs at Error, a 4xx logs at Warn even with an
  error, and statuses 201–399 without an error log at Info.
  `Dispatch.SeverityMatchesDocComment` and `Dispatch.SeverityBeyondDocComment`
  state both readings.
- **Gzip branch.** The gzip branch of `writeHeaderBody` (server.go:279-284)
  never calls `WriteHeader(status)` and never closes the gzip writer. The
  model keeps this as the `Gzipped` wire, which carries no status. So a
  compressed 404 reaches the client as 200 while the log says 404
  (`Dispatch.GzipBranchSendsNoStatus`). Because the gzip writer is never
  closed, its buffered output and the gzip trailer are never flushed, and the
  client never receives a complete gzip stream. The model records only what is
  handed to the gzip writer, not the bytes on the connection.
- **Test-only behaviours.** No `Content-Encoding: gzip` header is added, and
  compression is not gated on the MIME type. The tests check for those, but
  the code does not do them.
- **Untrimmed headers.** `acceptsGzip` depends on its `TrimSpace` for bounds.
  For the untrimmed header `gzip ` the read at line 333 would overrun
  (`AcceptEncoding.UntrimmedHeaderOverruns`).

## Model

| member | source | states |
|---|---|---|
| Strings.TrimSpace | server.go:288 | the trimmed header is a slice of the header with only white space before and after it, starts and ends with a non-space, and is empty exactly when the header is all white space |
| Strings.TrimSpaceIdempotent | server.go:288 | trimming an already trimmed header changes nothing |
| AcceptEncoding.AcceptsGzip | server.go:287-293 | an empty or all-white-space header never accepts gzip |
| AcceptEncoding.AcceptsGzipScan | server.go:287-356 | the index scan (trim, empty check, segment loop) returns exactly the functional verdict for every header |
| AcceptEncoding.ScanSegments | server.go:307-356 | on a non-empty header with no trailing space, the `i`/`j` loop returns the verdict of the first segment that is not skipped, and false when every segment is skipped; all accesses stay in bounds |
| AcceptEncoding.AtTerminator | server.go:309-322 | at a comma or the last byte, the scan's segment ends where the functional segmentation ends it; a decisive segment settles the answer, and a skipped one resumes the scan just past the comma |
| AcceptEncoding.SkipSpaces | server.go:314-318 | `skipSpaces` stops at the first non-space before `i` or at `i`, and what it passes over is exactly the leading spaces |
| AcceptEncoding.ScanSegment | server.go:313-353 | one segment's scan (short-segment abort, the 4-byte `gzip` comparison at line 323, the parameter tail) gives the segment's functional verdict, with the read at 323 in bounds |
| AcceptEncoding.ScanAfterGzip | server.go:331-338 | after `gzip` and spaces: a comma (or the segment end) accepts, a `;` goes on to the parameter, anything else rejects; the reads at 333 and 336 are in bounds because the segment ends at a comma or at a non-space last byte |
| AcceptEncoding.ScanQValue | server.go:339-353 | the parameter must be `q=` and at least one more byte (reads at 344 in bounds), and the qvalue loop (reads at 349 in bounds) accepts at the first byte other than `0` or `.` |
| AcceptEncoding.SegmentEnd | server.go:309-312 | a segment ends at the first comma before the last byte, or runs to the end of the header, so a trailing comma belongs to the last segment |
| AcceptEncoding.SegmentsRejoin | server.go:308-312 | joining the segments with commas gives back the header: the segmentation loses and invents nothing |
| AcceptEncoding.SegmentsCommaFree | server.go:309 | no segment but the last contains a comma |
| AcceptEncoding.DecideIsFirstDecisive | server.go:319-353 | the header accepts exactly when some segment accepts and every segment before it is skipped |
| AcceptEncoding.DecideFrom | server.go:319-326 | a skipped segment hands the decision to the rest of the header; a decisive one ends it; a skipped last segment refuses |
| AcceptEncoding.FirstSegmentDecides | server.go:319-353 | a first segment that accepts or rejects decides the header, whatever follows |
| AcceptEncoding.ShortSegmentAborts | server.go:319-321 | a first segment with fewer than four bytes after its leading spaces refuses gzip without looking at later segments |
| AcceptEncoding.SkippedSegmentDefers | server.go:323-326 | a first segment whose token is not `gzip` defers to the segments after its comma |
| AcceptEncoding.SkipThenLast | server.go:323-326 | after a skipped first segment, a comma-free last segment decides |
| AcceptEncoding.OnlySegment | server.go:307-356 | a trimmed header without inner commas accepts exactly when its one segment accepts |
| AcceptEncoding.BareGzipAccepts | server.go:327-335 | `gzip`, padded by spaces on either side and optionally followed by a comma, accepts |
| AcceptEncoding.LongerTokenRejects | server.go:336-338 | `gzip` followed directly by anything but a space, comma or `;` rejects |
| AcceptEncoding.OtherTokenSkipped | server.go:323-326 | a token whose first four bytes are not exactly `gzip` (case-sensitive) skips the segment |
| AcceptEncoding.QValueDecides | server.go:339-353 | `gzip;q=V` accepts exactly when `V` has a byte other than `0` and `.`; an empty `V` rejects |
| AcceptEncoding.MissingQRejects | server.go:341-346 | a parameter that is not `q=` followed by at least one byte rejects |
| AcceptEncoding.AllZeroIsZero | server.go:348-353 | a qvalue made only of `0` and `.` is zero |
| AcceptEncoding.UntrimmedHeaderOverruns | server.go:331-333 | without the trim, `gzip ` leaves `k` at the end of the string when line 333 reads it |
| AcceptEncoding.GzipAlone | server.go:295 | `gzip` is accepted |
| AcceptEncoding.GzipAfterDeflate | server.go:296 | `deflate, gzip` is accepted |
| AcceptEncoding.GzipFirstOfThree | server.go:298 | `gzip, deflate, br` is accepted |
| AcceptEncoding.GzipWithWeight | server.go:339-353 | `gzip;q=0.8` is accepted |
| AcceptEncoding.ShortFirstCoding | server.go:319-321 | `br, gzip` is refused: the short first segment aborts the scan |
| AcceptEncoding.LongerCoding | server.go:336-338 | `gzippy` is refused |
| AcceptEncoding.UpperCaseCoding | server.go:323-326 | `GZIP` is refused: the comparison is case-sensitive |
| AcceptEncoding.ZeroWeight | server.go:348-353 | `gzip;q=` followed by only `0`s and `.`s is refused |
| ConnectionGate.Admit | server.go:104-111 | a request is admitted exactly when the gate is not stopped; a stopped gate stays as it was, an open one counts one more connection |
| ConnectionGate.Release | server.go:125 | the deferred decrement removes exactly one connection and keeps the flag |
| ConnectionGate.Shutdown | server.go:183-184 | shutdown sets the flag, keeps the count, and no later request is admitted |
| ConnectionGate.DeadlineTimeout | server.go:186-189 | a zero `ShutdownTimeout` becomes 30 seconds; any other value is kept |
| ConnectionGate.RunCounts | server.go:104-126 | after any valid run of arrivals, departures and shutdowns, open connections = initial + admitted − departed |
| ConnectionGate.RunStopped | server.go:184 | the gate is stopped after a run exactly when it was before or the run contains a shutdown: the flag is never cleared |
| ConnectionGate.NoAdmissionWhenStopped | server.go:104-109 | from a stopped gate, any valid run stays stopped and ends with the open count minus the departures: nothing is admitted |
| ConnectionGate.NoneAdmittedWhenStopped | server.go:104-109 | once stopped, no arrival counts as admitted |
| ConnectionGate.MatchedRunsAreValid | server.go:111-126 | a run in which no prefix has more departures than admitted connections never drives the counter below zero |
| Dispatch.DefaultStatus | server.go:134-136 | status 0 becomes 200; any other status is kept |
| Dispatch.HeaderGet | server.go:160 | the lookup gives the value of the first header whose name matches without regard to ASCII case, and "" when no name matches |
| Dispatch.WithJsonType | server.go:160-162 | when the Content-Type lookup finds nothing, exactly `Content-Type: application/json` is appended; otherwise the headers are unchanged |
| Dispatch.Chain | server.go:156 | a chained error starts with the earlier error's `%s` text (`%!s(<nil>)` for nil), then the tag ` - <where>:`, and ends with the new cause; its length is exactly the sum of those parts |
| Dispatch.ResolveBody | server.go:142-163 | a string body is its bytes; a byte slice is used verbatim; any other value is the output of the encoder `FormatJSON` picks, with the JSON Content-Type rule applied whether or not marshalling succeeds, and on marshal failure leaves no bytes and reports the error |
| Dispatch.WriteHeaderBody | server.go:266-285 | the body goes through the gzip writer, with no status written, exactly when it is at least 150 bytes, gzip is enabled, no Content-Encoding is set and the client accepts gzip; otherwise the status is written, and the body only if non-empty; the write error is reported exactly when a body write happened |
| Dispatch.Severity | server.go:257-263 | Warn exactly for a 4xx status; Error exactly for a non-4xx status ≥ 500 or any error; Info exactly for a status below 400 with no error |
| Dispatch.Message | server.go:250-255 | the message is the error's text, or `OK` when there is none |
| Dispatch.WriteHttpLog | server.go:240-264 | the record carries the level and message above plus the status, bytes sent, method, URI and remote address it was given |
| Dispatch.Respond | server.go:128-177 | after a normal return: the response's headers are added after the preset ones; the logged status is 500 after a marshal failure and the defaulted status otherwise; a plain wire carries the logged status; bytes sent is 0 after a failed body write and the uncompressed body length otherwise; the log level follows the logged status and whether any error (handler, marshal or write) occurred, and without a marshal or write failure the logged message is the handler's error text |
| Dispatch.Handle | server.go:96-179 | stopped: 503, handler not invoked, counter untouched, logged at Error as `server shutting down`; otherwise one admit and one release; a panic gives 500, an empty body, only the preset headers (the response's are never added) and one callstack, logged at Error with the panic text; after a normal return the log level and message are those `Respond` states |
| Dispatch.SentStatus | server.go:279-284 | a gzipped response reaches the client as 200, whatever status the handler chose |
| Dispatch.SeverityMatchesDocComment | server.go:233-237 | without an error, the code agrees with the documented table: ≤ 200 Info, 4xx Warn, > 500 Error |
| Dispatch.SeverityBeyondDocComment | server.go:257-263 | with an error, a status ≤ 200 logs at Error and a 4xx still at Warn; 500 logs at Error and 301 at Info, cases the comment leaves out |
| Dispatch.HandleKeepsGateBalanced | server.go:104-126 | the handler runs exactly when the gate admits the request; an admitted request leaves one more connection open while it runs and the gate as it was afterwards, on the normal and the panic path |
| Dispatch.AdmittedOpsBalance | server.go:111-126 | the increment and the deferred decrement cancel out |
| Dispatch.NilBodyWritesStatusOnly | server.go:173-175 | a nil body writes only the defaulted status, sends 0 bytes and logs no callstack |
| Dispatch.VerbatimBody | server.go:144-147 | a string or byte-slice body is what is handed to the writer, byte for byte (the connection on the plain branch, the never-closed gzip writer on the gzip branch); bytes sent is its length on success, and 0 with `w.Write` chained onto the error when a plain write fails |
| Dispatch.MarshalFailureAnswers500 | server.go:155-162 | a marshal failure answers 500 with no body, chains `json.Marshal` onto the error, adds one callstack, and still applies the JSON Content-Type rule to the preset and response headers |
| Dispatch.MarshalledValue | server.go:148-163 | a marshalled value is sent as the encoding `FormatJSON` selects (indented or compact), under the handler's status, with the JSON Content-Type rule applied |
| Dispatch.CompressionGuard | server.go:269-277 | for any non-nil body the response is compressed exactly under the guard of line 271, so never below 150 bytes, with gzip disabled, or to a client that does not accept gzip |
| Dispatch.Compresses | server.go:271 | compression needs at least 150 bytes and gzip enabled, and never happens when a Content-Encoding is set or the `Accept-Encoding` header is blank |
| Dispatch.GzipBranchSendsNoStatus | server.go:279-284 | a long 404 body to a gzip client is sent compressed, reaches the client as 200, and is logged as 404 at Warn |
| Dispatch.HandlerErrorOnlyLogged | server.go:128-177 | the handler's error never changes the wire, headers, logged status or bytes sent; it only changes the message and level |
| LogLine.LevelName | fallbackLogger.go:55-77 | the level names are non-empty and contain no `]` |
| LogLine.Field | fallbackLogger.go:21 | a field is `key="value"`: the key and `="`, then exactly the value, then `"` |
| LogLine.AddField | fallbackLogger.go:17-22 | the old text is a prefix of the new; the new field is the suffix; exactly one space separates them, and none goes before the first field |
| LogLine.AddAllAppends | fallbackLogger.go:17-28 | any run of `AddField` calls only appends to the accumulated text |
| LogLine.AddAllIsJoin | fallbackLogger.go:17-22 | fields added one by one to an empty entry read as the rendered fields joined by single spaces |
| LogLine.AddAllIsJoinFrom | fallback_logger.go:16-21 | continuing a space-joined field list with more `AddField` calls keeps it a space-joined list of all fields, in order |
| LogLine.Entries | fallbackLogger.go:24-28 | the map iteration visits every key of the map exactly once, each with its own value |
| LogLine.AddFields | fallbackLogger.go:24-28 | every map entry is added exactly once, in the map's iteration order: on an empty entry the result is the rendered entries joined by single spaces, and otherwise the old text followed by them, space-separated |
| LogLine.Sprint | fallbackLogger.go:84 | `fmt.Sprint` of string arguments is their concatenation in order |
| LogLine.Write | fallbackLogger.go:79-91 | the line starts with `[level] ` and ends with one space and the accumulated fields |
| LogLine.WriteLevelRoundTrip | fallback_logger.go:70-82 | both the level and the text can be read back from a written line |
| LogLine.LineKeepsLevelAndFields | fallbackLogger.go:55-91 | every `Info`/`Warn`/`Error` call and its `*f` variant prints its own level and leaves the accumulated fields untouched at the end of the line |
| LogLine.EmptyFormatIsPlain | fallbackLogger.go:81-85 | an `*f` call with an empty format prints what the plain call prints: the concatenated arguments |
| ErrorStack.RenderFrame | fallbackLogger.go:47 | a frame prints as `path:func:line`, with the line in decimal |
| ErrorStack.RenderFrames | fallbackLogger.go:45-48 | one rendered entry per frame, in order |
| ErrorStack.StackFrames | fallbackLogger.go:33-43 | an `errorStack` error lists its own frames; any other error lists the current stack minus its first frame, or nothing when that stack has fewer than 2 frames |
| ErrorStack.AddError | fallbackLogger.go:30-53 | `err` is always added first; `stacktrace` (the frames joined by `", "`) follows exactly when there is a frame to list |
| ErrorStack.AddErrorFieldOrder | fallbackLogger.go:30-53 | `AddError` is `AddField("err")` followed by `AddField("stacktrace")` when frames exist, and nothing else |
| ErrorStack.ErrOnly | fallbackLogger.go:37-41 | a plain error where the stack has fewer than 2 frames adds only the `err` field |
| ErrorStack.PlainErrorLine | fallbackLogger.go:30-91 | an error without its own stack, logged with `Error(word)`, prints `[error] word err="text"` exactly when the current stack has fewer than two frames |
| ErrorStack.TraceLengthens | fallbackLogger.go:37-52 | with two or more current frames a plain error's fields run past its `err` field, because a `stacktrace` field follows |
| ErrorStack.EofErrorLine | fallbackLogger_test.go:17-21 | `AddError(io.EOF)` then `Error("whoops")` prints `[error] whoops err="EOF"` exactly when the stack the error helper returns has fewer than two frames |
| Callers.ShortenFrom | fallback_logger.go:93-101 | the right-to-left loop returns a suffix; with two slashes after index 0 it returns the part after the second-to-last, which contains one slash; otherwise the path unchanged |
| Callers.Shorten | fallback_logger.go:91-102 | the short path is a suffix of the file path; when two slashes follow index 0 it starts right after a slash and holds exactly one slash, otherwise it is the whole path (so `/a/b` is unchanged) |
| Callers.ShortenIdempotent | fallback_logger.go:91-102 | shortening a shortened path changes nothing |
| Callers.ShortenKeepsLastTwo | fallback_logger.go:91-102 | `p/dir/name` with non-empty `p` shortens to `dir/name` |
| Callers.GetCaller | fallback_logger.go:84-105 | a failed lookup gives `???` and line 0; a found one gives a suffix of its path and its own line |
| Callers.RenderKeepsLine | fallback_logger.go:41 | a kept frame prints as `file:line`, and the line can be read back |
| Callers.ClassifyFollowsFilter | fallback_logger.go:33-41 | a frame stops the walk exactly at `???`, is skipped exactly when its file ends in `.s` or starts with `http/server.go` or `runtime/proc.go`, and is otherwise kept as `file:line` |
| Callers.WalkAppend | fallback_logger.go:31-42 | before the first stop, kept entries keep their order across any split of the frames |
| Callers.WalkStop | fallback_logger.go:33-35 | nothing after the first stop is kept |
| Callers.KeptEntriesAppend | fallback_logger.go:31-42 | the kept entries of frames before any `???` are the kept entries of each part, in order |
| Callers.KeptEntriesStop | fallback_logger.go:31-35 | the frames after the first `???` contribute nothing |
| Callers.CallstackStartsWith | fallback_logger.go:41-43 | a first frame that is kept leads the joined callstack |
| Callers.CollectCallstack | fallback_logger.go:30-42 | the loop over `getCaller(2 + i)` collects exactly the kept entries, in order, up to the first `???` |
| Callers.AddCallstack | fallback_logger.go:29-44 | one `callstack` field holding the entries joined by `", "` is appended after the message and exactly one space (no space when the message is empty), with nothing else added; it is `callstack=""` when nothing was kept |
| Logrjack.AddField | vendor/github.com/judwhite/logrjack/entry.go:61-64 | the key maps to the new value; every other key and value is unchanged |
| Logrjack.AddFields | vendor/github.com/judwhite/logrjack/entry.go:66-73 | the result has the keys of both maps; added values win; other values are kept |
| Logrjack.AddFieldsOfOne | vendor/github.com/judwhite/logrjack/entry.go:61-73 | adding a one-entry map is adding that field |
| Logrjack.AddCallstack | vendor/github.com/judwhite/logrjack/entry.go:75-93 | the `callstack` field holds the filtered, joined entries, and every other key keeps its presence and its value |
| Logrjack.TestPathShortened | vendor/github.com/judwhite/logrjack/entry.go:125-146 | a frame in `…/logrjack/entry_test.go` at line 13 is reported as `logrjack/entry_test.go`, line 13 |
| Logrjack.TestFileKept | vendor/github.com/judwhite/logrjack/entry.go:85-90 | the test file passes the filter |
| Logrjack.TestEntryRendered | vendor/github.com/judwhite/logrjack/entry.go:90 | that frame prints as `logrjack/entry_test.go:13` |
| Logrjack.TestFrameKept | vendor/github.com/judwhite/logrjack/entry.go:80-90 | that frame is kept as `logrjack/entry_test.go:13` |
| Logrjack.CallstackStartsAtTest | vendor/github.com/judwhite/logrjack/entry_test.go:17 | when that frame comes first, the `callstack` value starts with `logrjack/entry_test.go:13` |

## Left out

- Concurrency and timing. The atomic loads and stores, the `openConnections` polling loop of `Shutdown` (server.go:191-210) and `time_taken` are not modelled. The gate is a sequential state, one request's two gate operations are a list, and only the 30-second default of the deadline is kept. `Admit` reads `stopped` and increments the counter in one step, but the source does these as two separate atomic operations (the load at server.go:104 and the add at server.go:111). So a `Shutdown` polling between them can see zero open connections while a request is about to run; the model cannot show this interleaving.
- The `int32` width of `openConnections` is not modelled: the model counts with unbounded naturals. Overflow would need 2^31 concurrent requests.
- The network and external packages are inputs or abstract values:
  - `http.ResponseWriter` is reduced to the `Wire` it ends up carrying.
  - The request is reduced to its method, URI, remote address and `Accept-Encoding`.
  - `encoding/json` is a given result per encoder.
  - `compress/gzip` is not modelled: a gzipped wire carries the uncompressed body.
  - `gzip.NewWriterLevel` cannot fail at `DefaultCompression`.
  - The write to the connection is given as `writeErr`.
  - logrus's formatter and `log.Print`/`logPrint` are left out. The model produces the line or field map they receive.
- `runtime.Caller` is an input list of lookups. The unseen `stackTrace`, `errorStack` and `frame` helpers are given as frames: the current stack, and the error's own stack when it is an `errorStack`.
- Go strings are modelled one `char` per byte, so the model is exact for ASCII text. `strings.TrimSpace` also removes multi-byte UTF-8 spaces (such as U+00A0); only the ASCII white space bytes are modelled as spaces.
- Header names are compared by ASCII case folding. `http.CanonicalHeaderKey` also leaves keys with invalid bytes as they are, and that is not modelled.
- `%v` of a field value is taken as already rendered text. `fmt.Sprint` is modelled only for string arguments, which it concatenates. `fmt.Sprintf` with a non-empty format is a parameter.
- Map iteration order in `AddFields` is unspecified in Go. It is an explicit enumeration that lists each key once.
- The six fields `WriteHTTPLog` adds are fields of the `LogRecord`, not rendered text. `time_taken` is absent (clock).
- The panic value is taken as its `Error()` or `%v` text.
- prometheus.go registers metrics and has no logic; it is not part of this model.
- The `Handler{Name,Func}` type, gzip magic-byte checks, MIME gating and a `Content-Encoding: gzip` header appear only in server_test.go. The code has none of them, so they are not modelled.
- setup_test.go's `getDefaultLogFilename` is not part of this model.
- `String()` of a logrjack entry (logrus formatting) is left out. The callstack test is stated on the field value instead of on the formatted entry.
- ErrorStack.EofErrorLine: the unseen `stackTrace` helper decides how many frames the error sees. The lemma states the test's expected line as holding exactly when that helper returns fewer than two frames, rather than asserting the outcome unconditionally.
- AcceptEncoding.SkippedSegmentDefers: states that a skipped first segment defers to the segments that follow its comma within the same header. It does not say that these equal the segments of the remainder taken as a header of its own.

=== FILE: accept_encoding.dfy ===
/**
 * The `Accept-Encoding` check of server.go: `acceptsGzip` decides whether a
 * response may be gzip-compressed. It is a loose, case-sensitive reading of
 * section 5.3.4 of RFC 7231 (codings, with the qvalues of section 5.3.1).
 *
 * The header is trimmed and cut into comma-separated segments; the segments
 * are judged left to right and the first one that is not skipped decides.
 * The functional reading (`AcceptsGzip`) states that; the method
 * `AcceptsGzipScan` follows the source's single index scan and is proved to
 * agree with it, every character access included.
 */
module AcceptEncoding {
  import opened Strings

  /** What one segment says: accept gzip, reject it (ending the scan), or move on. */
  datatype Verdict = Accept | Reject | Skip

  /** Drops leading ' ' characters only (the `skipSpaces` closure skips nothing else). */
  function DropSpaces(t: string): (r: string)
    ensures |r| <= |t|
    ensures r == [] || r[0] != ' '
    decreases |t|
  {
    if |t| > 0 && t[0] == ' ' then DropSpaces(t[1..]) else t
  }

  /** A qvalue text counts as non-zero as soon as one character is neither '0' nor '.'. */
  predicate NonZeroWeight(v: string)
    decreases |v|
  {
    v != [] && ((v[0] != '0' && v[0] != '.') || NonZeroWeight(v[1..]))
  }

  /** The four characters `gzip`, compared case-sensitively. */
  predicate IsGzip(w: string)
    requires |w| >= 4
  {
    w[0] == 'g' && w[1] == 'z' && w[2] == 'i' && w[3] == 'p'
  }

  /**
   * The verdict of one segment (the text between two commas, or up to the end).
   * Fewer than four characters after the leading spaces rejects outright; a
   * first word other than `gzip` is skipped; otherwise what follows `gzip`
   * decides (`AfterGzip`).
   */
  function SegmentVerdict(seg: string): Verdict {
    var t := DropSpaces(seg);
    if |t| < 4 then Reject
    else if !IsGzip(t) then Skip
    else AfterGzip(DropSpaces(t[4..]))
  }

  /**
   * What follows `gzip` and its spaces: nothing or a comma accepts, a `;`
   * introduces a parameter, anything else (`gzippy`) rejects.
   */
  function AfterGzip(r: string): Verdict {
    if r == [] || r[0] == ',' then Accept
    else if r[0] != ';' then Reject
    else QParam(DropSpaces(r[1..]))
  }

  /**
   * The parameter after `gzip;` and its spaces: it must be `q=` followed by at
   * least one character, and accepts exactly when the qvalue text is non-zero.
   */
  function QParam(p: string): Verdict {
    if |p| <= 2 || p[0] != 'q' || p[1] != '=' then Reject
    else if NonZeroWeight(p[2..]) then Accept
    else Reject
  }

  /**
   * Where the segment starting at `j` ends: at the first comma, unless the scan
   * reaches the last character first, in which case the segment runs to the end
   * of `s` (a trailing comma then belongs to the last segment).
   */
  function SegmentEnd(s: string, j: nat): (e: nat)
    requires j < |s|
    ensures j <= e <= |s|
    ensures e < |s| ==> s[e] == ',' && e < |s| - 1
    decreases |s| - j
  {
    if j == |s| - 1 then |s|
    else if s[j] == ',' then j
    else SegmentEnd(s, j + 1)
  }

  /** A segment holds no comma, except that the last one may end with one. */
  lemma {:induction false} SegmentEndFirstComma(s: string, j: nat)
    requires j < |s|
    ensures forall p :: j <= p < SegmentEnd(s, j) && p < |s| - 1 ==> s[p] != ','
    decreases |s| - j
  {
    if j < |s| - 1 && s[j] != ',' {
      SegmentEndFirstComma(s, j + 1);
    }
  }

  /** The segments of `s[j..]`, in order (`SegmentsRejoin` states what they are). */
  function SegmentsFrom(s: string, j: nat): (segs: seq<string>)
    requires j <= |s|
    decreases |s| - j
  {
    if j == |s| then []
    else
      var e := SegmentEnd(s, j);
      [s[j..e]] + (if e == |s| then [] else SegmentsFrom(s, e + 1))
  }

  /** The segments from `j`: the one up to its end `e`, then those after its comma. */
  lemma SegmentsFromStep(s: string, j: nat, e: nat, rest: seq<string>)
    requires j < |s| && e == SegmentEnd(s, j)
    requires rest == if e == |s| then [] else SegmentsFrom(s, e + 1)
    ensures SegmentsFrom(s, j) == [s[j..e]] + rest
  {
  }

  /** Any text left yields at least one segment. */
  lemma SegmentsFromNonEmpty(s: string, j: nat)
    requires j < |s|
    ensures SegmentsFrom(s, j) != []
  {
  }

  /** A segment that ends at a comma is followed by the segments after it. */
  lemma SegmentsFromMid(s: string, j: nat, e: nat)
    requires j < |s| && e == SegmentEnd(s, j) && e < |s|
    ensures SegmentsFrom(s, j) == [s[j..e]] + SegmentsFrom(s, e + 1)
  {
  }

  /** A segment that runs to the end of `s` is the last one. */
  lemma SegmentsFromLast(s: string, j: nat)
    requires j < |s| && SegmentEnd(s, j) == |s|
    ensures SegmentsFrom(s, j) == [s[j..]]
  {
    assert s[j..SegmentEnd(s, j)] == s[j..];
  }

  /** A comma at `e` splits `s[j..]` into what precedes it and what follows. */
  lemma SliceAtComma(s: string, j: nat, e: nat)
    requires j <= e < |s| && s[e] == ','
    ensures s[j..] == s[j..e] + "," + s[e + 1..]
  {
  }

  /** The step of `SegmentsRejoin`: a segment, its comma, and the rejoined rest give `s[j..]`. */
  lemma RejoinStep(s: string, j: nat, e: nat)
    requires j < |s| && e == SegmentEnd(s, j) && e < |s|
    requires Join(SegmentsFrom(s, e + 1), ",") == s[e + 1..]
    ensures Join(SegmentsFrom(s, j), ",") == s[j..]
  {
    SegmentsFromMid(s, j, e);
    SegmentsFromNonEmpty(s, e + 1);
    JoinCons(s[j..e], SegmentsFrom(s, e + 1), ",");
    SliceAtComma(s, j, e);
  }

  /**
   * Cutting loses nothing: joined back with commas the segments give `s[j..]`.
   */
  lemma {:induction false} SegmentsRejoin(s: string, j: nat)
    requires j <= |s|
    ensures Join(SegmentsFrom(s, j), ",") == s[j..]
    decreases |s| - j
  {
    if j < |s| {
      var e := SegmentEnd(s, j);
      if e < |s| {
        SegmentsRejoin(s, e + 1);
        RejoinStep(s, j, e);
      } else {
        SegmentsFromLast(s, j);
      }
    }
  }

  /** Every segment but the last is free of commas. */
  lemma {:induction false} SegmentsCommaFree(s: string, j: nat)
    requires j <= |s|
    ensures forall m :: 0 <= m < |SegmentsFrom(s, j)| - 1 ==> ',' !in SegmentsFrom(s, j)[m]
    decreases |s| - j
  {
    if j < |s| {
      var e := SegmentEnd(s, j);
      if e < |s| {
        SegmentsCommaFree(s, e + 1);
        SegmentsFromMid(s, j, e);
        FirstSegmentCommaFree(s, j, e);
        ConsCommaFree(s[j..e], SegmentsFrom(s, e + 1));
      }
    }
  }

  /** A segment that ends at a comma holds no comma itself. */
  lemma FirstSegmentCommaFree(s: string, j: nat, e: nat)
    requires j < |s| && e == SegmentEnd(s, j) && e < |s|
    ensures ',' !in s[j..e]
  {
    SegmentEndFirstComma(s, j);
    forall m | 0 <= m < e - j ensures s[j..e][m] != ',' {
      assert s[j..e][m] == s[j + m];
    }
  }

  /** Putting a comma-free segment in front keeps every segment but the last comma-free. */
  lemma ConsCommaFree(seg: string, rest: seq<string>)
    requires ',' !in seg
    requires forall m :: 0 <= m < |rest| - 1 ==> ',' !in rest[m]
    ensures forall m :: 0 <= m < |[seg] + rest| - 1 ==> ',' !in ([seg] + rest)[m]
  {
    var segs := [seg] + rest;
    forall m | 0 <= m < |segs| - 1 ensures ',' !in segs[m] {
      if m > 0 {
        assert segs[m] == rest[m - 1];
      }
    }
  }

  function Segments(s: string): seq<string> {
    SegmentsFrom(s, 0)
  }

  /** The first segment that does not skip decides; if every segment skips, gzip is refused. */
  function Decide(segs: seq<string>): bool {
    if segs == [] then false
    else match SegmentVerdict(segs[0])
      case Accept => true
      case Reject => false
      case Skip => Decide(segs[1..])
  }

  /** The functional reading of `acceptsGzip`. */
  function AcceptsGzip(header: string): (r: bool)
    ensures TrimSpace(header) == [] ==> !r
  {
    Decide(Segments(TrimSpace(header)))
  }

  /** The `skipSpaces` closure: advance `k` over ' ' characters, never past `i`. */
  method SkipSpaces(s: string, k: nat, i: nat) returns (k': nat)
    requires k <= i <= |s|
    ensures k <= k' <= i
    ensures forall m :: k <= m < k' ==> s[m] == ' '
    ensures k' == i || s[k'] != ' '
    ensures s[k'..i] == DropSpaces(s[k..i])
  {
    k' := k;
    while k' < i && s[k'] == ' '
      invariant k <= k' <= i
      invariant forall m :: k <= m < k' ==> s[m] == ' '
      invariant DropSpaces(s[k'..i]) == DropSpaces(s[k..i])
    {
      assert s[k'..i][1..] == s[k' + 1..i];
      k' := k' + 1;
    }
  }

  /**
   * The body of the scan for one segment `s[start..i]`, from the first
   * `skipSpaces()` to the comparison with `gzip`.
   */
  method ScanSegment(s: string, start: nat, i: nat) returns (v: Verdict)
    requires start < |s| && s[|s| - 1] != ' '
    requires i == SegmentEnd(s, start)
    ensures v == SegmentVerdict(s[start..i])
  {
    var k := SkipSpaces(s, start, i);
    if k + 4 > i {
      return Reject;
    }
    ghost var t := s[k..i];
    assert s[k..k + 4] == "gzip" <==> IsGzip(t) by {
      assert t[..4] == s[k..k + 4];
    }
    if s[k..k + 4] != "gzip" {
      return Skip;
    }
    if k + 4 == i {
      return Accept;
    }
    assert t[4..] == s[k + 4..i];
    v := ScanAfterGzip(s, k + 4, i);
  }

  /**
   * From just after `gzip` to the end of the segment. The last character of
   * `s` is not a space (the header was trimmed), and that is what keeps the
   * reads of `s[k]` after the second `skipSpaces()` inside the string: when
   * the segment runs to the end, the spaces stop before it.
   */
  method ScanAfterGzip(s: string, k0: nat, i: nat) returns (v: Verdict)
    requires k0 < i <= |s| && s[|s| - 1] != ' '
    requires i < |s| ==> s[i] == ','
    ensures v == AfterGzip(DropSpaces(s[k0..i]))
  {
    var k := SkipSpaces(s, k0, i);
    ghost var r := s[k..i];
    if s[k] == ',' {
      return Accept;
    }
    if s[k] != ';' {
      return Reject;
    }
    assert r[1..] == s[k + 1..i];
    v := ScanQValue(s, k + 1, i);
  }

  /** From just after `gzip;` to the end of the segment: the `q=` check and the qvalue loop. */
  method ScanQValue(s: string, k0: nat, i: nat) returns (v: Verdict)
    requires k0 <= i <= |s|
    ensures v == QParam(DropSpaces(s[k0..i]))
  {
    var k := SkipSpaces(s, k0, i);
    ghost var p := s[k..i];
    if k + 2 >= i {
      return Reject;
    }
    if s[k] != 'q' || s[k + 1] != '=' {
      return Reject;
    }
    k := k + 2;
    ghost var w := k;
    assert p[2..] == s[w..i];
    while k < i
      invariant w <= k <= i
      invariant NonZeroWeight(s[k..i]) == NonZeroWeight(s[w..i])
    {
      if s[k] != '0' && s[k] != '.' {
        return Accept;
      }
      assert s[k..i][1..] == s[k + 1..i];
      k := k + 1;
    }
    return Reject;
  }

  /** `Decide` judges the first segment and goes on only past a skipped one. */
  lemma DecideCons(seg: string, rest: seq<string>)
    ensures Decide([seg] + rest) == match SegmentVerdict(seg)
      case Accept => true
      case Reject => false
      case Skip => Decide(rest)
  {
    assert ([seg] + rest)[1..] == rest;
  }

  /** One step of `Decide` over the segments of `s[j..]`: judge the first, then go on past its comma. */
  lemma DecideFrom(s: string, j: nat, e: nat, v: Verdict)
    requires j < |s| && e == SegmentEnd(s, j)
    requires v == SegmentVerdict(s[j..e])
    ensures v == Skip && e < |s| ==> Decide(SegmentsFrom(s, j)) == Decide(SegmentsFrom(s, e + 1))
    ensures v == Skip && e == |s| ==> !Decide(SegmentsFrom(s, j))
    ensures v != Skip ==> Decide(SegmentsFrom(s, j)) == (v == Accept)
  {
    var rest := if e == |s| then [] else SegmentsFrom(s, e + 1);
    SegmentsFromStep(s, j, e, rest);
    DecideCons(s[j..e], rest);
  }

  /**
   * `acceptsGzip` as the source writes it: trim, then one pass of `i` over the
   * header; at each comma (or at the last character, where `i` is pushed past
   * the end) the segment `j..i` is judged, and `j` moves past it.
   */
  method AcceptsGzipScan(header: string) returns (accepted: bool)
    ensures accepted == AcceptsGzip(header)
  {
    var s := TrimSpace(header);
    if |s| == 0 {
      return false;
    }
    accepted := ScanSegments(s);
  }

  /**
   * Where the scan stands: `i` is inside the segment that starts at `j`, and the
   * segments from `j` on decide what the whole header decides; once `i` is past
   * the end, every segment was skipped.
   */
  ghost predicate ScanState(s: string, j: nat, i: nat, goal: bool) {
    && j <= i <= |s| + 1
    && (i < |s| ==> j < |s| && SegmentEnd(s, j) == SegmentEnd(s, i) && Decide(SegmentsFrom(s, j)) == goal)
    && (i >= |s| ==> !goal)
  }

  /**
   * The scan at a terminator `i` (a comma, or the last character, where `i` is
   * pushed past the end): the segment from `j` ends at `e` and is judged. A
   * decisive verdict is the header's answer; past a skipped one the scan starts
   * afresh at the next segment.
   */
  method AtTerminator(s: string, j: nat, i: nat, ghost goal: bool) returns (v: Verdict, e: nat)
    requires i < |s| && s[|s| - 1] != ' ' && (s[i] == ',' || i == |s| - 1)
    requires ScanState(s, j, i, goal)
    ensures e == SegmentEnd(s, j) && e >= i
    ensures v != Skip ==> goal == (v == Accept)
    ensures v == Skip ==> ScanState(s, e + 1, e + 1, goal)
  {
    e := i;
    if i == |s| - 1 {
      e := i + 1;
    }
    v := ScanSegment(s, j, e);
    DecideFrom(s, j, e, v);
    if v == Skip {
      ScanStateAfterSkip(s, j, e, goal);
    }
  }

  method ScanSegments(s: string) returns (accepted: bool)
    requires s != [] && s[|s| - 1] != ' '
    ensures accepted == Decide(Segments(s))
  {
    ghost var goal := Decide(Segments(s));
    var j: nat := 0;
    var i: nat := 0;
    while i < |s|
      invariant ScanState(s, j, i, goal)
      decreases |s| + 1 - i
    {
      if s[i] == ',' || i == |s| - 1 {
        var v, e := AtTerminator(s, j, i, goal);
        if v != Skip {
          return v == Accept;
        }
        j := e + 1;
        i := e + 1;
      } else {
        ScanStateInside(s, j, i, goal);
        i := i + 1;
      }
    }
    return false;
  }

  /** Past a skipped segment the scan starts afresh at the next one. */
  lemma ScanStateAfterSkip(s: string, j: nat, e: nat, goal: bool)
    requires j < |s| && e == SegmentEnd(s, j) && Decide(SegmentsFrom(s, j)) == goal
    requires e < |s| ==> Decide(SegmentsFrom(s, j)) == Decide(SegmentsFrom(s, e + 1))
    requires e == |s| ==> !Decide(SegmentsFrom(s, j))
    ensures ScanState(s, e + 1, e + 1, goal)
  {
  }

  /** Inside a segment the scan moves on and stays in it. */
  lemma ScanStateInside(s: string, j: nat, i: nat, goal: bool)
    requires i < |s| - 1 && s[i] != ',' && ScanState(s, j, i, goal)
    ensures ScanState(s, j, i + 1, goal)
  {
  }

  /** The first segment that does not skip accepts, and no earlier one decides. */
  lemma {:induction false} DecideIsFirstDecisive(segs: seq<string>)
    ensures Decide(segs) <==>
      exists n :: 0 <= n < |segs| && SegmentVerdict(segs[n]) == Accept
        && forall m :: 0 <= m < n ==> SegmentVerdict(segs[m]) == Skip
  {
    if segs != [] {
      DecideIsFirstDecisive(segs[1..]);
      if SegmentVerdict(segs[0]) == Skip {
        if Decide(segs) {
          var n :| 0 <= n < |segs[1..]| && SegmentVerdict(segs[1..][n]) == Accept
            && forall m :: 0 <= m < n ==> SegmentVerdict(segs[1..][m]) == Skip;
          assert SegmentVerdict(segs[n + 1]) == Accept;
          assert forall m :: 0 <= m < n + 1 ==> SegmentVerdict(segs[m]) == Skip by {
            forall m | 0 <= m < n + 1 ensures SegmentVerdict(segs[m]) == Skip {
              if m > 0 {
                assert segs[m] == segs[1..][m - 1];
              }
            }
          }
        } else {
          forall n | 0 <= n < |segs| && SegmentVerdict(segs[n]) == Accept
            ensures exists m :: 0 <= m < n && SegmentVerdict(segs[m]) != Skip
          {
            assert n > 0;
            assert segs[1..][n - 1] == segs[n];
            var m :| 0 <= m < n - 1 && SegmentVerdict(segs[1..][m]) != Skip;
            assert segs[1..][m] == segs[m + 1];
          }
        }
      }
    }
  }

  lemma {:induction false} SegmentEndAtComma(s: string, j: nat, e: nat)
    requires j <= e < |s| - 1 && s[e] == ','
    requires forall p :: j <= p < e ==> s[p] != ','
    ensures SegmentEnd(s, j) == e
    decreases e - j
  {
    if j < e {
      SegmentEndAtComma(s, j + 1, e);
    }
  }

  /**
   * A comma ahead of at least one more character splits off one comma-free
   * segment; the segments after it are those from just past the comma.
   */
  lemma SplitAtComma(a: string, b: string)
    requires ',' !in a && b != []
    ensures Segments(a + "," + b) == [a] + SegmentsFrom(a + "," + b, |a| + 1)
  {
    var s := a + "," + b;
    assert s[|a|] == ',';
    assert forall p :: 0 <= p < |a| ==> s[p] == a[p];
    SegmentEndAtComma(s, 0, |a|);
    SegmentsFromMid(s, 0, |a|);
    assert s[0..|a|] == a;
  }

  /** With no comma before its last character, the text from `j` on is one segment. */
  lemma LastSegment(s: string, j: nat)
    requires j < |s|
    requires forall p :: j <= p < |s| - 1 ==> s[p] != ','
    ensures SegmentsFrom(s, j) == [s[j..]]
  {
    SegmentEndRunsToEnd(s, j);
    SegmentsFromLast(s, j);
  }

  /**
   * A first segment that accepts or rejects settles the header: the segments
   * after its comma are never looked at.
   */
  lemma FirstSegmentDecides(a: string, b: string)
    requires ',' !in a && b != [] && SegmentVerdict(a) != Skip
    ensures Decide(Segments(a + "," + b)) == (SegmentVerdict(a) == Accept)
  {
    SplitAtComma(a, b);
    DecideCons(a, SegmentsFrom(a + "," + b, |a| + 1));
  }

  /** A segment with fewer than four characters after its spaces ends the scan with a refusal, whatever follows. */
  lemma ShortSegmentAborts(a: string, b: string)
    requires ',' !in a && b != [] && |DropSpaces(a)| < 4
    ensures !Decide(Segments(a + "," + b))
  {
    FirstSegmentDecides(a, b);
  }

  /** A segment whose first word is not `gzip` hands the decision to the segments after its comma. */
  lemma SkippedSegmentDefers(a: string, b: string)
    requires ',' !in a && b != [] && SegmentVerdict(a) == Skip
    ensures Decide(Segments(a + "," + b)) == Decide(SegmentsFrom(a + "," + b, |a| + 1))
  {
    SplitAtComma(a, b);
    DecideCons(a, SegmentsFrom(a + "," + b, |a| + 1));
  }

  /** After a skipped segment, a final segment decides. */
  lemma SkipThenLast(a: string, b: string)
    requires ',' !in a && b != [] && ',' !in b[..|b| - 1] && SegmentVerdict(a) == Skip
    ensures Decide(Segments(a + "," + b)) == (SegmentVerdict(b) == Accept)
  {
    var s := a + "," + b;
    SkippedSegmentDefers(a, b);
    assert forall p :: |a| + 1 <= p < |s| - 1 ==> s[p] == b[..|b| - 1][p - |a| - 1];
    LastSegment(s, |a| + 1);
    assert s[|a| + 1..] == b;
    DecideCons(b, []);
  }

  /** A header with nothing to trim and no comma before its end is decided by its one segment. */
  lemma OnlySegment(h: string)
    requires h != [] && !IsSpace(h[0]) && !IsSpace(h[|h| - 1]) && ',' !in h[..|h| - 1]
    ensures AcceptsGzip(h) == (SegmentVerdict(h) == Accept)
  {
    TrimSpaceOfTrimmed(h);
    SingleSegment(h);
    DecideCons(h, []);
  }

  lemma {:induction false} DropSpacesOfPadded(pad: string, x: string)
    requires forall m :: 0 <= m < |pad| ==> pad[m] == ' '
    requires x == [] || x[0] != ' '
    ensures DropSpaces(pad + x) == x
    decreases |pad|
  {
    if pad == [] {
      assert pad + x == x;
    } else {
      var y := pad + x;
      assert y[0] == ' ' && y[1..] == pad[1..] + x;
      DropSpacesOfPadded(pad[1..], x);
    }
  }

  /** `gzip`, surrounded by spaces only and possibly followed by a comma, accepts. */
  lemma BareGzipAccepts(pad: string, trail: string, comma: bool)
    requires forall m :: 0 <= m < |pad| ==> pad[m] == ' '
    requires forall m :: 0 <= m < |trail| ==> trail[m] == ' '
    ensures SegmentVerdict(pad + "gzip" + trail + (if comma then "," else "")) == Accept
  {
    var c := if comma then "," else "";
    var x := "gzip" + trail + c;
    assert pad + "gzip" + trail + c == pad + x;
    DropSpacesOfPadded(pad, x);
    assert x[4..] == trail + c;
    DropSpacesOfPadded(trail, c);
  }

  /** `gzip` as the prefix of a longer word (`gzippy`) rejects: the scan stops there. */
  lemma LongerTokenRejects(pad: string, x: string)
    requires forall m :: 0 <= m < |pad| ==> pad[m] == ' '
    requires x != [] && x[0] != ' ' && x[0] != ',' && x[0] != ';'
    ensures SegmentVerdict(pad + "gzip" + x) == Reject
  {
    var y := "gzip" + x;
    assert pad + "gzip" + x == pad + y;
    DropSpacesOfPadded(pad, y);
    assert y[4..] == x;
  }

  /** The match is case-sensitive: any other four-letter start (`GZIP`, `x-gz`) is skipped. */
  lemma OtherTokenSkipped(pad: string, tok: string, x: string)
    requires forall m :: 0 <= m < |pad| ==> pad[m] == ' '
    requires |tok| == 4 && tok[0] != ' ' && tok != "gzip"
    ensures SegmentVerdict(pad + tok + x) == Skip
  {
    var y := tok + x;
    assert pad + tok + x == pad + y;
    DropSpacesOfPadded(pad, y);
    assert tok == [tok[0], tok[1], tok[2], tok[3]];
    assert y[..4] == tok;
  }

  /** `gzip;q=V` accepts exactly when V has a character other than '0' and '.'; an empty V rejects. */
  lemma QValueDecides(pad: string, v: string)
    requires forall m :: 0 <= m < |pad| ==> pad[m] == ' '
    ensures SegmentVerdict(pad + "gzip;q=" + v) == (if NonZeroWeight(v) then Accept else Reject)
  {
    var x := ";q=" + v;
    assert pad + "gzip;q=" + v == pad + ("gzip" + x);
    PaddedSegment(pad, "gzip" + x);
    GzipThen(x);
    WeightParam(v);
  }

  /** Leading spaces do not change a segment's verdict. */
  lemma PaddedSegment(pad: string, x: string)
    requires forall m :: 0 <= m < |pad| ==> pad[m] == ' '
    requires x == [] || x[0] != ' '
    ensures SegmentVerdict(pad + x) == SegmentVerdict(x)
  {
    DropSpacesOfPadded(pad, x);
    DropSpacesOfPadded([], x);
    assert [] + x == x;
  }

  /** `;q=V` after `gzip` accepts exactly when V is non-zero. */
  lemma WeightParam(v: string)
    ensures AfterGzip(DropSpaces(";q=" + v)) == (if NonZeroWeight(v) then Accept else Reject)
  {
    var r := ";q=" + v;
    assert DropSpaces(r) == r && r[1..] == "q=" + v;
    assert DropSpaces("q=" + v) == "q=" + v;
    assert ("q=" + v)[2..] == v;
  }

  /** What follows `gzip` decides the segment, after its spaces are dropped. */
  lemma GzipThen(x: string)
    ensures SegmentVerdict("gzip" + x) == AfterGzip(DropSpaces(x))
  {
    var y := "gzip" + x;
    assert y[..4] == "gzip" && y[4..] == x;
    assert DropSpaces(y) == y;
  }

  /** `gzip;` not followed (after spaces) by `q=` and a qvalue rejects. */
  lemma MissingQRejects(pad: string, x: string)
    requires forall m :: 0 <= m < |pad| ==> pad[m] == ' '
    requires var p := DropSpaces(x); |p| <= 2 || p[0] != 'q' || p[1] != '='
    ensures SegmentVerdict(pad + "gzip;" + x) == Reject
  {
    var y := "gzip;" + x;
    assert pad + "gzip;" + x == pad + y;
    DropSpacesOfPadded(pad, y);
    assert y[4..] == ";" + x;
    assert (";" + x)[1..] == x;
  }

  /**
   * Without the trim the scan would run off the end: for `gzip ` the segment
   * ends at the end of the string and the spaces after `gzip` reach it, so the
   * read of `s[k]` after the second `skipSpaces()` would be at index `|s|`.
   */
  lemma UntrimmedHeaderOverruns()
    ensures var s := "gzip ";
      SegmentEnd(s, 0) == |s| && DropSpaces(s[4..]) == [] && 4 < |s|
  {
    var s := "gzip ";
    assert SegmentEnd(s, 3) == |s|;
    assert s[4..] == " ";
  }

  lemma SingleSegment(s: string)
    requires s != [] && ',' !in s[..|s| - 1]
    ensures Segments(s) == [s]
  {
    assert forall p :: 0 <= p < |s| - 1 ==> s[p] == s[..|s| - 1][p];
    LastSegment(s, 0);
    assert s[0..] == s;
  }

  lemma {:induction false} SegmentEndRunsToEnd(s: string, j: nat)
    requires j < |s|
    requires forall p :: j <= p < |s| - 1 ==> s[p] != ','
    ensures SegmentEnd(s, j) == |s|
    decreases |s| - j
  {
    if j < |s| - 1 {
      SegmentEndRunsToEnd(s, j + 1);
    }
  }

  lemma GzipSegment(a: string)
    requires a == "gzip"
    ensures SegmentVerdict(a) == Accept && ',' !in a
  {
    BareGzipAccepts("", "", false);
    assert "" + "gzip" + "" + "" == a;
  }

  lemma SpacedGzipSegment(b: string)
    requires b == " gzip"
    ensures SegmentVerdict(b) == Accept && ',' !in b
  {
    BareGzipAccepts(" ", "", false);
    assert " " + "gzip" + "" + "" == b;
  }

  lemma DeflateSegment(a: string)
    requires a == "deflate"
    ensures SegmentVerdict(a) == Skip && ',' !in a
  {
    OtherTokenSkipped("", "defl", "ate");
    assert "" + "defl" + "ate" == a;
  }

  lemma GzipAlone()
    ensures AcceptsGzip("gzip")
  {
    var h := "gzip";
    GzipSegment(h);
    OnlySegment(h);
  }

  lemma GzipAfterDeflate()
    ensures AcceptsGzip("deflate, gzip")
  {
    GzipAfterDeflateOf("deflate, gzip");
  }

  lemma GzipAfterDeflateOf(h: string)
    requires h == "deflate, gzip"
    ensures AcceptsGzip(h)
  {
    var a, b := "deflate", " gzip";
    assert h == a + "," + b;
    TrimSpaceOfTrimmed(h);
    DeflateSegment(a);
    SpacedGzipSegment(b);
    assert ',' !in b[..|b| - 1];
    SkipThenLast(a, b);
  }

  lemma GzipFirstOfThree()
    ensures AcceptsGzip("gzip, deflate, br")
  {
    GzipFirstOfThreeOf("gzip, deflate, br");
  }

  lemma GzipFirstOfThreeOf(h: string)
    requires h == "gzip, deflate, br"
    ensures AcceptsGzip(h)
  {
    var a, b := "gzip", " deflate, br";
    assert h == a + "," + b;
    TrimSpaceOfTrimmed(h);
    GzipSegment(a);
    FirstSegmentDecides(a, b);
  }

  lemma GzipWithWeight()
    ensures AcceptsGzip("gzip;q=0.8")
  {
    var h := "gzip;q=0.8";
    var v := "0.8";
    QValueDecides("", v);
    assert "" + "gzip;q=" + v == h;
    assert v[1..][1..] == "8";
    OnlySegment(h);
  }

  lemma ShortFirstCoding()
    ensures !AcceptsGzip("br, gzip")
  {
    ShortFirstCodingOf("br, gzip");
  }

  lemma ShortFirstCodingOf(h: string)
    requires h == "br, gzip"
    ensures !AcceptsGzip(h)
  {
    var a, b := "br", " gzip";
    assert h == a + "," + b;
    TrimSpaceOfTrimmed(h);
    assert DropSpaces(a) == a;
    ShortSegmentAborts(a, b);
  }

  lemma LongerCoding()
    ensures !AcceptsGzip("gzippy")
  {
    var h := "gzippy";
    LongerTokenRejects("", "py");
    assert "" + "gzip" + "py" == h;
    OnlySegment(h);
  }

  lemma UpperCaseCoding()
    ensures !AcceptsGzip("GZIP")
  {
    var h := "GZIP";
    OtherTokenSkipped("", h, "");
    assert "" + h + "" == h;
    OnlySegment(h);
  }

  lemma ZeroWeight(v: string)
    requires v != []
    requires forall m :: 0 <= m < |v| ==> v[m] == '0' || v[m] == '.'
    ensures !AcceptsGzip("gzip;q=" + v)
  {
    var h := "gzip;q=" + v;
    assert h[|h| - 1] == v[|v| - 1];
    assert ',' !in h[..|h| - 1];
    QValueDecides("", v);
    assert "" + "gzip;q=" + v == h;
    AllZeroIsZero(v);
    OnlySegment(h);
  }

  lemma {:induction false} AllZeroIsZero(v: string)
    requires forall m :: 0 <= m < |v| ==> v[m] == '0' || v[m] == '.'
    ensures !NonZeroWeight(v)
    decreases |v|
  {
    if v != [] {
      AllZeroIsZero(v[1..]);
    }
  }
}

=== FILE: callers.dfy ===
/**
 * `getCaller` and `AddCallstack` of fallback_logger.go, whose text is the
 * same in logrjack's entry.go. `runtime.Caller` is replaced by its answer
 * for each frame: a file and line, or a failed lookup.
 */
module Callers {
  import opened Strings
  import LogLine

  /** What `runtime.Caller` reports for one frame. */
  datatype Lookup = Found(file: string, line: nat) | Unknown

  /** The file `getCaller` reports for a failed lookup. */
  const UnknownFile: string := "???"

  function CountSlashes(s: string): nat
    decreases |s|
  {
    if s == [] then 0 else (if s[0] == '/' then 1 else 0) + CountSlashes(s[1..])
  }

  lemma CountSlashesSplit(s: string, i: nat)
    requires i < |s|
    ensures CountSlashes(s[i..]) == (if s[i] == '/' then 1 else 0) + CountSlashes(s[i + 1..])
  {
    assert s[i..][1..] == s[i + 1..];
  }

  /** The slashes `getCaller`'s loop can see: those at index 1 and after. */
  function InnerSlashes(file: string): nat {
    if file == [] then 0 else CountSlashes(file[1..])
  }

  /**
   * The loop of `getCaller`, at index `i` going down, with `count` slashes
   * seen to the right of `i`: it cuts after the second one it meets and stops
   * without cutting when it reaches index 0.
   */
  function ShortenFrom(file: string, i: nat, count: nat): (short: string)
    requires i < |file| && count < 2 && CountSlashes(file[i + 1..]) == count
    ensures HasSuffix(file, short)
    ensures CountSlashes(file[1..]) >= 2 ==> CountSlashes(short) == 1 && file[|file| - |short| - 1] == '/'
    ensures CountSlashes(file[1..]) < 2 ==> short == file
    decreases i
  {
    CountSlashesSplit(file, i);
    if i == 0 then
      file
    else if file[i] == '/' && count + 1 == 2 then
      SlashesBeforeCut(file, i);
      file[i + 1..]
    else
      ShortenFrom(file, i - 1, if file[i] == '/' then count + 1 else count)
  }

  /** Cutting at index `i > 0` with two slashes from `i` on leaves at least two slashes in `file[1..]`. */
  lemma SlashesBeforeCut(file: string, i: nat)
    requires 0 < i < |file| && CountSlashes(file[i..]) == 2
    ensures CountSlashes(file[1..]) >= 2
  {
    CountSlashesDrop(file[1..], i - 1);
    assert file[1..][i - 1..] == file[i..];
  }

  /** Dropping a prefix never adds slashes. */
  lemma {:induction false} CountSlashesDrop(s: string, k: nat)
    requires k <= |s|
    ensures CountSlashes(s[k..]) <= CountSlashes(s)
    decreases k
  {
    if k > 0 {
      CountSlashesDrop(s[1..], k - 1);
      assert s[1..][k - 1..] == s[k..];
    }
  }

  /**
   * `getCaller`'s shortening: the part after the second slash from the right,
   * among those at index 1 and after, or the whole path when there are fewer
   * than two such slashes.
   */
  function Shorten(file: string): (short: string)
    ensures HasSuffix(file, short)
    ensures InnerSlashes(file) >= 2 ==> CountSlashes(short) == 1 && file[|file| - |short| - 1] == '/'
    ensures InnerSlashes(file) < 2 ==> short == file
  {
    if |file| <= 1 then
      assert InnerSlashes(file) == 0 by {
        assert file == [] || file[1..] == [];
      }
      file
    else
      assert file[|file|..] == [];
      ShortenFrom(file, |file| - 1, 0)
  }

  /** A shortened path has nothing left to cut. */
  lemma ShortenIdempotent(file: string)
    ensures Shorten(Shorten(file)) == Shorten(file)
  {
    var short := Shorten(file);
    if short != [] {
      CountSlashesDrop(short, 1);
      if InnerSlashes(file) < 2 {
        assert short == file;
      }
    }
  }

  /** A path ending in `dir/name`, with a slash before `dir` that is not its first character, shortens to `dir/name`. */
  lemma ShortenKeepsLastTwo(p: string, dir: string, name: string)
    requires p != [] && '/' !in dir && '/' !in name
    ensures Shorten(p + "/" + dir + "/" + name) == dir + "/" + name
  {
    var file := p + "/" + dir + "/" + name;
    var tail := dir + "/" + name;
    NoSlashes(name);
    NoSlashes(dir);
    CountSlashesConcat(dir, "/" + name);
    assert CountSlashes("/" + name) == 1 + CountSlashes(name) by {
      assert ("/" + name)[1..] == name;
    }
    assert CountSlashes(tail) == 1 by {
      assert tail == dir + ("/" + name);
    }
    assert file[|p|..] == "/" + tail;
    assert file[|p| + 1..] == tail;
    CountSlashesSplit(file, |p|);
    SlashesBeforeCut(file, |p|);
    var short := Shorten(file);
    assert |short| <= |file|;
    if |short| > |tail| {
      assert file[|file| - |short|..] == short;
      SuffixSlashes(file, |file| - |short|, |p| + 1);
      assert false;
    }
    assert short == file[|p| + 1..];
  }

  lemma {:induction false} NoSlashes(s: string)
    requires '/' !in s
    ensures CountSlashes(s) == 0
    decreases |s|
  {
    if s != [] {
      assert s[0] != '/';
      NoSlashes(s[1..]);
    }
  }

  lemma {:induction false} CountSlashesConcat(a: string, b: string)
    ensures CountSlashes(a + b) == CountSlashes(a) + CountSlashes(b)
    decreases |a|
  {
    if a == [] {
      assert a + b == b;
    } else {
      CountSlashesConcat(a[1..], b);
      assert (a + b)[1..] == a[1..] + b;
    }
  }

  /** Starting further left never finds fewer slashes: a suffix from `j` holds those from `k >= j`, plus the one at `j` if any. */
  lemma SuffixSlashes(s: string, j: nat, k: nat)
    requires j < k <= |s| && s[k - 1] == '/'
    ensures CountSlashes(s[j..]) >= 1 + CountSlashes(s[k..])
  {
    var t := s[j..];
    CountSlashesDrop(t, k - 1 - j);
    assert t[k - 1 - j..] == s[k - 1..];
    CountSlashesSplit(s, k - 1);
  }

  /** `getCaller`: the shortened file and its line, or `???` and 0 when the lookup failed. */
  function GetCaller(l: Lookup): (r: (string, nat))
    ensures l.Unknown? ==> r == (UnknownFile, 0)
    ensures l.Found? ==> HasSuffix(l.file, r.0) && r.1 == l.line
  {
    match l
    case Unknown => (UnknownFile, 0)
    case Found(file, line) => (Shorten(file), line)
  }

  /** `AddCallstack`'s filter: assembly files, `net/http`'s server loop and the runtime's goroutine start. */
  predicate Dropped(file: string) {
    HasSuffix(file, ".s") || HasPrefix(file, "http/server.go") || HasPrefix(file, "runtime/proc.go")
  }

  /** A frame as `%s:%d` prints it. */
  function Render(file: string, line: nat): string {
    file + ":" + Decimal(line)
  }

  /** The line number can be read back from a rendered frame. */
  lemma RenderKeepsLine(file: string, line: nat)
    ensures HasPrefix(Render(file, line), file + ":")
    ensures ParseDecimal(Render(file, line)[|file| + 1..]) == line
  {
    assert Render(file, line)[|file| + 1..] == Decimal(line);
    DecimalRoundTrip(line);
  }

  /** What `AddCallstack`'s loop does with one frame. */
  datatype Step = Stop | Skip | Keep(entry: string)

  /** `break` at `???`, `continue` past a filtered file, and otherwise keep `file:line`. */
  function Classify(l: Lookup): Step {
    var (file, line) := GetCaller(l);
    if file == UnknownFile then Stop
    else if Dropped(file) then Skip
    else Keep(Render(file, line))
  }

  /** A frame where the walk ends. */
  predicate Stops(l: Lookup) {
    Classify(l).Stop?
  }

  /** The step taken at each frame. */
  function Steps(frames: seq<Lookup>): (st: seq<Step>)
    ensures |st| == |frames|
    ensures forall i :: 0 <= i < |frames| ==> st[i] == Classify(frames[i])
  {
    seq(|frames|, i requires 0 <= i < |frames| => Classify(frames[i]))
  }

  /** The entries kept by a run of steps, in order, up to the first stop. */
  function Walk(steps: seq<Step>): (cs: seq<string>)
    ensures |cs| <= |steps|
    decreases |steps|
  {
    if steps == [] then []
    else match steps[0]
      case Stop => []
      case Skip => Walk(steps[1..])
      case Keep(entry) => [entry] + Walk(steps[1..])
  }

  /**
   * The entries `AddCallstack` collects from the lookups for `skip` 2, 3, …
   * (every lookup past the end of `frames` fails).
   */
  function KeptEntries(frames: seq<Lookup>): seq<string> {
    Walk(Steps(frames))
  }

  /** The classification follows `AddCallstack`'s tests: stop at `???`, skip filtered files, keep the rest as `file:line`. */
  lemma ClassifyFollowsFilter(l: Lookup)
    ensures Classify(l) == Stop <==> GetCaller(l).0 == UnknownFile
    ensures Classify(l) == Skip <==> GetCaller(l).0 != UnknownFile && Dropped(GetCaller(l).0)
    ensures Classify(l).Keep? ==> Classify(l).entry == Render(GetCaller(l).0, GetCaller(l).1)
  {
  }

  /** Before the first stop, walking a concatenation is walking each part: order is kept. */
  lemma {:induction false} WalkAppend(a: seq<Step>, b: seq<Step>)
    requires Stop !in a
    ensures Walk(a + b) == Walk(a) + Walk(b)
    decreases |a|
  {
    if a == [] {
      assert a + b == b;
    } else {
      assert (a + b)[0] == a[0] && (a + b)[1..] == a[1..] + b;
      assert a[0] != Stop;
      WalkAppend(a[1..], b);
      if a[0].Keep? {
        ConcatAssoc([a[0].entry], Walk(a[1..]), Walk(b));
      }
    }
  }

  /** Nothing after the first stop is kept. */
  lemma WalkStop(a: seq<Step>, b: seq<Step>)
    requires Stop !in a
    ensures Walk(a + [Stop] + b) == Walk(a)
  {
    WalkAppend(a, [Stop] + b);
    assert a + [Stop] + b == a + ([Stop] + b);
    assert ([Stop] + b)[0] == Stop;
    assert Walk(a) + [] == Walk(a);
  }

  /** The frames' steps distribute over concatenation, frame by frame. */
  lemma StepsAppend(a: seq<Lookup>, b: seq<Lookup>)
    ensures Steps(a + b) == Steps(a) + Steps(b)
  {
  }

  /** Before the first stopping frame, the entries of a concatenation are the concatenation of the entries. */
  lemma KeptEntriesAppend(a: seq<Lookup>, b: seq<Lookup>)
    requires forall i :: 0 <= i < |a| ==> !Stops(a[i])
    ensures KeptEntries(a + b) == KeptEntries(a) + KeptEntries(b)
  {
    StepsAppend(a, b);
    assert forall i :: 0 <= i < |a| ==> Steps(a)[i] != Stop;
    WalkAppend(Steps(a), Steps(b));
  }

  /** Nothing after the first stopping frame is listed. */
  lemma KeptEntriesStop(a: seq<Lookup>, x: Lookup, b: seq<Lookup>)
    requires forall i :: 0 <= i < |a| ==> !Stops(a[i])
    requires Stops(x)
    ensures KeptEntries(a + [x] + b) == KeptEntries(a)
  {
    StepsAppend(a + [x], b);
    StepsAppend(a, [x]);
    assert Steps([x]) == [Stop];
    assert forall i :: 0 <= i < |a| ==> Steps(a)[i] != Stop;
    WalkStop(Steps(a), Steps(b));
  }

  /** The `callstack` value: the entries joined by `", "`. */
  function Callstack(frames: seq<Lookup>): string {
    Join(KeptEntries(frames), ", ")
  }

  /** A first frame that is kept leads the callstack. */
  lemma CallstackStartsWith(frames: seq<Lookup>, entry: string)
    requires frames != [] && Classify(frames[0]) == Keep(entry)
    ensures KeptEntries(frames) != [] && KeptEntries(frames)[0] == entry
    ensures HasPrefix(Callstack(frames), entry)
  {
    var steps := Steps(frames);
    assert steps[0] == Keep(entry);
    var entries := KeptEntries(frames);
    assert entries == [entry] + Walk(steps[1..]);
    if |entries| > 1 {
      JoinCons(entry, entries[1..], ", ");
      assert entries == [entry] + entries[1..];
    }
  }

  /**
   * The loop of `AddCallstack`: `getCaller(2 + i)` for i = 0, 1, …, `break`
   * at `???`, `continue` past filtered files, append `file:line` otherwise.
   */
  method CollectCallstack(frames: seq<Lookup>) returns (cs: seq<string>)
    ensures cs == KeptEntries(frames)
  {
    cs := [];
    var i := 0;
    while true
      invariant 0 <= i <= |frames|
      invariant cs + Walk(Steps(frames)[i..]) == KeptEntries(frames)
      decreases |frames| - i
    {
      var (file, line) := GetCaller(if i < |frames| then frames[i] else Unknown);
      if file == UnknownFile {
        assert i < |frames| ==> Steps(frames)[i..][0] == Stop;
        assert cs + [] == cs;
        break;
      }
      var rest := Steps(frames)[i..];
      assert rest[0] == Classify(frames[i]) && rest[1..] == Steps(frames)[i + 1..];
      if Dropped(file) {
        i := i + 1;
        continue;
      }
      ConcatAssoc(cs, [Render(file, line)], Walk(rest[1..]));
      cs := cs + [Render(file, line)];
      i := i + 1;
    }
  }

  /** fallback_logger.go's `AddCallstack`: one `callstack` field, empty when no frame was kept. */
  function AddCallstack(msg: string, frames: seq<Lookup>): (r: string)
    ensures HasPrefix(r, msg)
    ensures HasSuffix(r, LogLine.Field("callstack", Callstack(frames)))
    ensures |r| == |msg| + |LogLine.Field("callstack", Callstack(frames))| + (if msg == [] then 0 else 1)
    ensures msg != [] ==> r[|msg|] == ' '
    ensures KeptEntries(frames) == [] ==> HasSuffix(r, "callstack=\"\"")
  {
    LogLine.AddField(msg, "callstack", Callstack(frames))
  }
}

=== FILE: connection_gate.dfy ===
/**
 * The admission counters of server.go's `Server`: the `stopped` flag, set by
 * `Shutdown` and never cleared, and `openConnections`, raised when `Handle`
 * admits a request and lowered once by its deferred block. The source uses
 * atomics; here the requests' gate events are interleaved into one sequence.
 */
module ConnectionGate {
  import opened Maybe

  datatype Gate = Gate(stopped: bool, open: nat)

  /** Nanoseconds in a second, as `time.Second`. */
  const Second: int := 1_000_000_000

  /** What happens to the gate: a request arrives, an admitted request finishes, or `Shutdown` runs. */
  datatype Event = Arrive | Depart | Stop

  /** The gate operations of one request inside `Handle`: the increment and the deferred decrement. */
  datatype GateOp = Enter | Leave

  /** An arriving request is admitted unless the server is stopped; only an admitted one is counted. */
  function Admit(g: Gate): (r: (bool, Gate))
    ensures r.0 <==> !g.stopped
    ensures r.1.stopped == g.stopped
    ensures r.0 <==> r.1.open == g.open + 1
    ensures !r.0 ==> r.1 == g
  {
    if g.stopped then (false, g) else (true, g.(open := g.open + 1))
  }

  /** The deferred decrement; only an admitted request releases, so the count is positive. */
  function Release(g: Gate): (r: Gate)
    requires g.open > 0
    ensures r.open + 1 == g.open && r.stopped == g.stopped
  {
    g.(open := g.open - 1)
  }

  /** `Shutdown`'s store of `stopped`: it closes admission and leaves the in-flight count alone. */
  function Shutdown(g: Gate): (r: Gate)
    ensures r.stopped && r.open == g.open
    ensures !Admit(r).0
  {
    g.(stopped := true)
  }

  /** `Shutdown`'s deadline: a zero `ShutdownTimeout` means thirty seconds; any other value is used as is. */
  function DeadlineTimeout(timeout: int): (d: int)
    ensures d != 0
    ensures timeout != 0 ==> d == timeout
    ensures timeout == 0 ==> d == 30 * Second
  {
    if timeout == 0 then 30 * Second else timeout
  }

  /** One event; a departure with nothing in flight has no admitted request behind it, so it is refused. */
  function Step(g: Gate, e: Event): Option<Gate> {
    match e
    case Arrive => Some(Admit(g).1)
    case Depart => if g.open == 0 then None else Some(Release(g))
    case Stop => Some(Shutdown(g))
  }

  /** A run of events from `g`, or `None` if some departure had no admitted request. */
  function Run(g: Gate, evs: seq<Event>): Option<Gate>
    decreases |evs|
  {
    if evs == [] then Some(g)
    else match Step(g, evs[0])
      case None => None
      case Some(g') => Run(g', evs[1..])
  }

  /** The arrivals of `evs` that are admitted: those before the first `Stop`, and none once stopped. */
  function Admitted(stopped: bool, evs: seq<Event>): nat
    decreases |evs|
  {
    if evs == [] then 0
    else match evs[0]
      case Arrive => (if stopped then 0 else 1) + Admitted(stopped, evs[1..])
      case Depart => Admitted(stopped, evs[1..])
      case Stop => Admitted(true, evs[1..])
  }

  function Departures(evs: seq<Event>): nat
    decreases |evs|
  {
    if evs == [] then 0
    else (if evs[0] == Depart then 1 else 0) + Departures(evs[1..])
  }

  /**
   * The counter is exact: after a valid run, the requests in flight are those
   * in flight before plus those admitted minus those that finished.
   */
  lemma {:induction false} RunCounts(g: Gate, evs: seq<Event>)
    requires Run(g, evs).Some?
    ensures Run(g, evs).value.open + Departures(evs) == g.open + Admitted(g.stopped, evs)
    decreases |evs|
  {
    if evs != [] {
      var g' := Step(g, evs[0]).value;
      RunCounts(g', evs[1..]);
    }
  }

  /** `stopped` is never cleared, and it is set exactly when the run began stopped or held a `Stop`. */
  lemma {:induction false} RunStopped(g: Gate, evs: seq<Event>)
    requires Run(g, evs).Some?
    ensures Run(g, evs).value.stopped <==> g.stopped || Stop in evs
    decreases |evs|
  {
    if evs != [] {
      var g' := Step(g, evs[0]).value;
      RunStopped(g', evs[1..]);
      assert Stop in evs <==> evs[0] == Stop || Stop in evs[1..] by {
        assert evs == [evs[0]] + evs[1..];
      }
    }
  }

  /** Once stopped, no arrival is admitted: the count can only fall. */
  lemma NoAdmissionWhenStopped(g: Gate, evs: seq<Event>)
    requires g.stopped && Run(g, evs).Some?
    ensures Run(g, evs).value.stopped
    ensures Run(g, evs).value.open + Departures(evs) == g.open
  {
    NoneAdmittedWhenStopped(evs);
    RunCounts(g, evs);
    RunStopped(g, evs);
  }

  /** A stopped gate counts no admission, whatever arrives. */
  lemma {:induction false} NoneAdmittedWhenStopped(evs: seq<Event>)
    ensures Admitted(true, evs) == 0
    decreases |evs|
  {
    if evs != [] {
      NoneAdmittedWhenStopped(evs[1..]);
    }
  }

  /**
   * Every run in which each departure follows its own admission is valid: the
   * count never has to go below zero.
   */
  lemma {:induction false} MatchedRunsAreValid(g: Gate, evs: seq<Event>)
    requires forall n :: 0 <= n <= |evs| ==> Departures(evs[..n]) <= g.open + Admitted(g.stopped, evs[..n])
    ensures Run(g, evs).Some?
    decreases |evs|
  {
    if evs != [] {
      assert evs[..1] == [evs[0]];
      assert Departures([evs[0]]) <= g.open + Admitted(g.stopped, [evs[0]]);
      var g' := Step(g, evs[0]).value;
      forall n | 0 <= n <= |evs[1..]|
        ensures Departures(evs[1..][..n]) <= g'.open + Admitted(g'.stopped, evs[1..][..n])
      {
        assert evs[..n + 1] == [evs[0]] + evs[1..][..n];
        PrefixCounts(evs[0], evs[1..][..n], g.stopped);
      }
      MatchedRunsAreValid(g', evs[1..]);
    }
  }

  lemma PrefixCounts(e: Event, rest: seq<Event>, stopped: bool)
    ensures Departures([e] + rest) == (if e == Depart then 1 else 0) + Departures(rest)
    ensures Admitted(stopped, [e] + rest) ==
      (if e == Arrive && !stopped then 1 else 0) + Admitted(stopped || e == Stop, rest)
  {
    assert ([e] + rest)[1..] == rest;
  }

  /** The gate operations of one request, applied in order. */
  function ApplyOps(g: Gate, ops: seq<GateOp>): Option<Gate>
    decreases |ops|
  {
    if ops == [] then Some(g)
    else match ops[0]
      case Enter => ApplyOps(g.(open := g.open + 1), ops[1..])
      case Leave => if g.open == 0 then None else ApplyOps(Release(g), ops[1..])
  }
}

=== FILE: dispatch.dfy ===
/**
 * One request through server.go's `Server.Handle`, `writeHeaderBody` and
 * `WriteHTTPLog`, as a pure function of what the request, the handler, the
 * JSON encoder and the connection produce. The response writer is replaced
 * by the `Wire` it ends up carrying, and the log entry by the record
 * `WriteHTTPLog` fills in.
 */
module Dispatch {
  import opened Maybe
  import opened Strings
  import opened LogLine
  import AcceptEncoding
  import ConnectionGate

  /** A byte string, one character per byte. */
  type Bytes = seq<char>

  const StatusOK: int := 200
  const StatusInternalServerError: int := 500
  const StatusServiceUnavailable: int := 503

  /** Bodies shorter than this are never compressed. */
  const MinGzipLength: nat := 150

  const ShuttingDown: string := "server shutting down"

  /** The text `fmt`'s `%s` verb prints for a nil `error`. */
  const NilErrorText: string := "%!s(<nil>)"

  datatype Config = Config(formatJson: bool, disableGzip: bool)

  datatype Request = Request(verb: string, uri: string, remoteAddr: string, acceptEncoding: string)

  datatype Header = Header(name: string, value: string)

  /** What `json.Marshal` (or `MarshalIndent`) produced for a value. */
  datatype Marshal = Marshalled(bytes: Bytes) | MarshalFailed(message: string)

  /**
   * The handler's `Body`: nil, a string, a byte slice, or any other value,
   * given by what the two JSON encoders make of it.
   */
  datatype Body = NoBody | Text(text: string) | Raw(bytes: Bytes) | Value(compact: Marshal, indented: Marshal)

  datatype Response = Response(body: Body, status: int, headers: seq<Header>)

  /** How the handler ended: it returned a response and an error, or it panicked with a message. */
  datatype HandlerOutcome = Returned(response: Response, err: Option<string>) | Panicked(message: string)

  /**
   * What reaches the response writer: an explicit status and the raw body,
   * or the body through the gzip writer, with no status written.
   */
  datatype Wire = Plain(status: int, body: Bytes) | Gzipped(body: Bytes)

  /** What `WriteHTTPLog` records, plus how many times `AddCallstack` ran on the entry. */
  datatype LogRecord = LogRecord(
    level: Level, message: string, status: int, bytesSent: nat,
    verb: string, uri: string, remoteAddr: string, callstacks: nat)

  datatype Outcome = Outcome(
    invoked: bool, headers: seq<Header>, wire: Wire, log: LogRecord, gate: seq<ConnectionGate.GateOp>)

  /** ASCII lower case, the folding under which header names compare equal. */
  function Lower(c: char): char {
    if 'A' <= c <= 'Z' then (c as int + 32) as char else c
  }

  predicate SameName(a: string, b: string) {
    |a| == |b| && forall i :: 0 <= i < |a| ==> Lower(a[i]) == Lower(b[i])
  }

  /** `http.Header.Get`: the first value under a name, compared without case, or "" when there is none. */
  function HeaderGet(hs: seq<Header>, name: string): (v: string)
    ensures v != [] ==> exists i :: 0 <= i < |hs| && SameName(hs[i].name, name) && hs[i].value == v
    ensures (forall i :: 0 <= i < |hs| ==> !SameName(hs[i].name, name)) ==> v == []
    ensures forall i :: 0 <= i < |hs| && SameName(hs[i].name, name) && (forall j :: 0 <= j < i ==> !SameName(hs[j].name, name)) ==> v == hs[i].value
    decreases |hs|
  {
    if hs == [] then []
    else if SameName(hs[0].name, name) then hs[0].value
    else HeaderGet(hs[1..], name)
  }

  /** An error's `%s` text, where a nil error prints as `%!s(<nil>)`. */
  function ErrorText(err: Option<string>): (t: string)
    ensures err.Some? ==> t == err.value
    ensures err.None? ==> t == NilErrorText
  {
    match err
    case None => NilErrorText
    case Some(e) => e
  }

  /** `fmt.Errorf("%s - <where>:%s", err, cause)`: the earlier error, then where the new one came from. */
  function Chain(err: Option<string>, where: string, cause: string): (r: string)
    ensures HasPrefix(r, ErrorText(err)) && HasSuffix(r, ":" + cause)
    ensures |r| == |ErrorText(err)| + |where| + |cause| + 4
    ensures r[|ErrorText(err)|..|r| - |cause|] == " - " + where + ":"
  {
    ErrorText(err) + " - " + where + ":" + cause
  }

  /** A zero status stands for 200. */
  function DefaultStatus(status: int): (s: int)
    ensures s != 0
    ensures status != 0 ==> s == status
    ensures status == 0 ==> s == StatusOK
  {
    if status == 0 then StatusOK else status
  }

  /** The bytes of a non-nil body, the headers after it, and the marshal error, if any. */
  datatype Resolved = Resolved(bytes: Bytes, headers: seq<Header>, marshalError: Option<string>)

  /** The encoder `FormatJSON` selects. */
  function Chosen(cfg: Config, compact: Marshal, indented: Marshal): (m: Marshal)
    ensures m == compact || m == indented
  {
    if cfg.formatJson then indented else compact
  }

  /** Some `Content-Type` header carries a non-empty value. */
  predicate HasContentType(hs: seq<Header>) {
    exists i :: 0 <= i < |hs| && SameName(hs[i].name, "Content-Type") && hs[i].value != []
  }

  /**
   * The headers of a JSON body: `Content-Type: application/json` is added when
   * `Get` finds no non-empty value, and otherwise nothing changes.
   */
  function WithJsonType(headers: seq<Header>): (hs: seq<Header>)
    ensures HasPrefix(hs, headers) && |hs| <= |headers| + 1
    ensures HasContentType(hs)
    ensures HeaderGet(headers, "Content-Type") != [] ==> hs == headers
    ensures HeaderGet(headers, "Content-Type") == [] ==> hs == headers + [Header("Content-Type", "application/json")]
  {
    if HeaderGet(headers, "Content-Type") == [] then
      var hs := headers + [Header("Content-Type", "application/json")];
      assert SameName(hs[|headers|].name, "Content-Type");
      hs
    else
      headers
  }

  /**
   * A string body becomes its bytes and a byte slice is used as is; any other
   * value is JSON, a failed encoding leaves no bytes, and `Content-Type:
   * application/json` is added unless the first `Content-Type` present is
   * non-empty.
   */
  function ResolveBody(cfg: Config, body: Body, headers: seq<Header>): (r: Resolved)
    requires !body.NoBody?
    ensures body.Text? ==> r == Resolved(body.text, headers, None)
    ensures body.Raw? ==> r == Resolved(body.bytes, headers, None)
    ensures body.Value? ==> HasPrefix(r.headers, headers) && |r.headers| <= |headers| + 1
    ensures body.Value? ==> HasContentType(r.headers)
    ensures body.Value? ==> r.headers == WithJsonType(headers)
    ensures body.Value? ==> (r.marshalError.Some? <==> Chosen(cfg, body.compact, body.indented).MarshalFailed?)
    ensures r.marshalError.Some? ==> r.bytes == []
    ensures body.Value? && Chosen(cfg, body.compact, body.indented).Marshalled? ==>
      r.bytes == Chosen(cfg, body.compact, body.indented).bytes && r.headers == WithJsonType(headers) && r.marshalError.None?
  {
    match body
    case Text(t) => Resolved(t, headers, None)
    case Raw(b) => Resolved(b, headers, None)
    case Value(compact, indented) =>
      var hs := WithJsonType(headers);
      match Chosen(cfg, compact, indented)
      case Marshalled(bytes) => Resolved(bytes, hs, None)
      case MarshalFailed(m) => Resolved([], hs, Some(m))
  }

  /** The compression guard of `writeHeaderBody`. */
  function Compresses(cfg: Config, acceptEncoding: string, headers: seq<Header>, body: Bytes): (b: bool)
    ensures b ==> |body| >= MinGzipLength && !cfg.disableGzip
    ensures HeaderGet(headers, "Content-Encoding") != [] ==> !b
    ensures TrimSpace(acceptEncoding) == [] ==> !b
  {
    && |body| >= MinGzipLength
    && !cfg.disableGzip
    && HeaderGet(headers, "Content-Encoding") == []
    && AcceptEncoding.AcceptsGzip(acceptEncoding)
  }

  /**
   * `writeHeaderBody`: the status and the raw body, writing the body only when
   * it is non-empty, or else the body through a gzip writer that is never
   * given the status and never closed. `writeErr` is what writing the body
   * to the connection returns.
   */
  function WriteHeaderBody(cfg: Config, acceptEncoding: string, headers: seq<Header>, status: int, body: Bytes, writeErr: Option<string>): (r: (Wire, Option<string>))
    ensures r.0.body == body
    ensures r.0.Gzipped? <==> Compresses(cfg, acceptEncoding, headers, body)
    ensures r.0.Plain? ==> r.0.status == status
    ensures r.1.Some? ==> r.1 == writeErr && body != []
    ensures body != [] || r.0.Gzipped? ==> r.1 == writeErr
  {
    if |body| < MinGzipLength || cfg.disableGzip || HeaderGet(headers, "Content-Encoding") != [] || !AcceptEncoding.AcceptsGzip(acceptEncoding) then
      (Plain(status, body), if |body| > 0 then writeErr else None)
    else
      (Gzipped(body), writeErr)
  }

  /**
   * `WriteHTTPLog`'s level: a 4xx status is a warning even with an error, any
   * other status from 500 up or any error is an error, and the rest is info.
   */
  function Severity(status: int, hasErr: bool): (l: Level)
    ensures l == Warn <==> 400 <= status < 500
    ensures l == Error <==> !(400 <= status < 500) && (status >= 500 || hasErr)
    ensures l == Info <==> status < 400 && !hasErr
  {
    if 400 <= status < 500 then Warn
    else if status >= 500 || hasErr then Error
    else Info
  }

  /** The logged message: the error's text, or `OK` without one. */
  function Message(err: Option<string>): (m: string)
    ensures err.None? ==> m == "OK"
    ensures err.Some? ==> m == err.value
  {
    if err.Some? then err.value else "OK"
  }

  function WriteHttpLog(req: Request, status: int, bytesSent: nat, err: Option<string>, callstacks: nat): (r: LogRecord)
    ensures r.level == Severity(status, err.Some?) && r.message == Message(err)
    ensures r.status == status && r.bytesSent == bytesSent && r.callstacks == callstacks
    ensures r.verb == req.verb && r.uri == req.uri && r.remoteAddr == req.remoteAddr
  {
    LogRecord(Severity(status, err.Some?), Message(err), status, bytesSent, req.verb, req.uri, req.remoteAddr, callstacks)
  }

  /** The gate operations of an admitted request: the increment and the deferred decrement. */
  const AdmittedOps: seq<ConnectionGate.GateOp> := [ConnectionGate.Enter, ConnectionGate.Leave]

  /** The part of `Handle` after the handler returned normally. */
  function Respond(cfg: Config, req: Request, preset: seq<Header>, resp: Response, err: Option<string>, writeErr: Option<string>): (o: Outcome)
    ensures o.invoked && o.gate == AdmittedOps
    ensures HasPrefix(o.headers, preset + resp.headers)
    ensures o.log.status == (if resp.body.Value? && Chosen(cfg, resp.body.compact, resp.body.indented).MarshalFailed? then StatusInternalServerError else DefaultStatus(resp.status))
    ensures o.wire.Plain? ==> o.wire.status == o.log.status
    ensures o.log.bytesSent == (if writeErr.Some? && (o.wire.Gzipped? || o.wire.body != []) then 0 else |o.wire.body|)
    ensures var failed := resp.body.Value? && Chosen(cfg, resp.body.compact, resp.body.indented).MarshalFailed?;
      var writeFailed := writeErr.Some? && (o.wire.Gzipped? || o.wire.body != []);
      && o.log.level == Severity(o.log.status, err.Some? || failed || writeFailed)
      && (!failed && !writeFailed ==> o.log.message == Message(err))
  {
    var status := DefaultStatus(resp.status);
    var headers := preset + resp.headers;
    if resp.body.NoBody? then
      Outcome(true, headers, Plain(status, []), WriteHttpLog(req, status, 0, err, 0), AdmittedOps)
    else
      var b := ResolveBody(cfg, resp.body, headers);
      var failed := b.marshalError.Some?;
      var status' := if failed then StatusInternalServerError else status;
      var err' := if failed then Some(Chain(err, "json.Marshal", b.marshalError.value)) else err;
      var w := WriteHeaderBody(cfg, req.acceptEncoding, b.headers, status', b.bytes, writeErr);
      var err'' := if w.1.Some? then Some(Chain(err', "w.Write", w.1.value)) else err';
      var sent := if w.1.Some? then 0 else |b.bytes|;
      var stacks := (if failed then 1 else 0) + (if w.1.Some? then 1 else 0);
      Outcome(true, b.headers, w.0, WriteHttpLog(req, status', sent, err'', stacks), AdmittedOps)
  }

  /**
   * `Handle` for one request: refused with 503 once the server is stopped,
   * answered with 500 when the handler panics, and otherwise answered with
   * the handler's response.
   */
  function Handle(cfg: Config, stopped: bool, req: Request, preset: seq<Header>, outcome: HandlerOutcome, writeErr: Option<string>): (o: Outcome)
    ensures stopped ==> !o.invoked && o.gate == [] && o.headers == preset && o.wire == Plain(StatusServiceUnavailable, [])
    ensures stopped ==> o.log.level == Error && o.log.message == ShuttingDown && o.log.bytesSent == 0
    ensures !stopped ==> o.invoked && o.gate == AdmittedOps
    ensures !stopped && outcome.Panicked? ==> o.wire == Plain(StatusInternalServerError, []) && o.log.status == StatusInternalServerError
    ensures !stopped && outcome.Panicked? ==> o.headers == preset
    ensures !stopped && outcome.Panicked? ==> o.log.level == Error && o.log.message == outcome.message && o.log.bytesSent == 0 && o.log.callstacks == 1
    ensures o.wire.Plain? ==> o.wire.status == o.log.status
    ensures o.log.bytesSent == 0 || o.log.bytesSent == |o.wire.body|
    ensures !stopped && outcome.Returned? ==>
      var resp := outcome.response;
      var failed := resp.body.Value? && Chosen(cfg, resp.body.compact, resp.body.indented).MarshalFailed?;
      var writeFailed := writeErr.Some? && (o.wire.Gzipped? || o.wire.body != []);
      && o.log.level == Severity(o.log.status, outcome.err.Some? || failed || writeFailed)
      && (!failed && !writeFailed ==> o.log.message == Message(outcome.err))
  {
    if stopped then
      Outcome(false, preset, Plain(StatusServiceUnavailable, []), WriteHttpLog(req, StatusServiceUnavailable, 0, Some(ShuttingDown), 0), [])
    else
      match outcome
      case Panicked(msg) =>
        Outcome(true, preset, Plain(StatusInternalServerError, []), WriteHttpLog(req, StatusInternalServerError, 0, Some(msg), 1), AdmittedOps)
      case Returned(resp, err) => Respond(cfg, req, preset, resp, err, writeErr)
  }

  /** The status a client sees: the one written, or the 200 `net/http` sends on a first write without one. */
  function SentStatus(w: Wire): (s: int)
    ensures w.Gzipped? ==> s == StatusOK
  {
    match w
    case Plain(status, _) => status
    case Gzipped(_) => StatusOK
  }

  /** The severity table against the doc comment above `WriteHTTPLog`, in the cases it covers: error-free requests. */
  lemma SeverityMatchesDocComment(status: int)
    ensures status <= 200 ==> Severity(status, false) == Info
    ensures 400 <= status < 500 ==> Severity(status, false) == Warn
    ensures status > 500 ==> Severity(status, false) == Error
  {
  }

  /** Where the code goes beyond the doc comment: an error raises a 2xx to Error but never a 4xx, and 500 itself is Error. */
  lemma SeverityBeyondDocComment(status: int)
    ensures status <= 200 ==> Severity(status, true) == Error
    ensures 400 <= status < 500 ==> Severity(status, true) == Warn
    ensures Severity(500, false) == Error && Severity(301, false) == Info
  {
  }

  /**
   * `Handle` against the gate: the handler runs exactly when the gate admits
   * the request, and every admitted request releases what it took, on the
   * normal path and on the panic path alike.
   */
  lemma HandleKeepsGateBalanced(g: ConnectionGate.Gate, cfg: Config, req: Request, preset: seq<Header>, outcome: HandlerOutcome, writeErr: Option<string>)
    ensures var o := Handle(cfg, g.stopped, req, preset, outcome, writeErr);
      && (o.invoked <==> ConnectionGate.Admit(g).0)
      && ConnectionGate.ApplyOps(g, o.gate) == Some(g)
      && (o.invoked ==> ConnectionGate.ApplyOps(g, o.gate[..1]) == Some(ConnectionGate.Admit(g).1))
  {
    var o := Handle(cfg, g.stopped, req, preset, outcome, writeErr);
    if !g.stopped {
      AdmittedOpsBalance(g);
    }
  }

  /** The two operations of an admitted request: after the first one more request is in flight, after both the gate is back. */
  lemma AdmittedOpsBalance(g: ConnectionGate.Gate)
    ensures ConnectionGate.ApplyOps(g, AdmittedOps) == Some(g)
    ensures ConnectionGate.ApplyOps(g, AdmittedOps[..1]) == Some(g.(open := g.open + 1))
  {
    assert AdmittedOps[1..] == [ConnectionGate.Leave];
    assert AdmittedOps[..1][1..] == [];
    assert [ConnectionGate.Leave][1..] == [];
  }

  /** A nil body writes only the status, and the status defaults to 200. */
  lemma NilBodyWritesStatusOnly(cfg: Config, req: Request, preset: seq<Header>, resp: Response, err: Option<string>, writeErr: Option<string>)
    requires resp.body.NoBody?
    ensures var o := Handle(cfg, false, req, preset, Returned(resp, err), writeErr);
      && o.wire == Plain(DefaultStatus(resp.status), [])
      && o.headers == preset + resp.headers
      && o.log.bytesSent == 0 && o.log.message == Message(err) && o.log.callstacks == 0
  {
  }

  /**
   * A string or byte-slice body is what is handed to the response writer,
   * byte for byte (on the gzip branch, to the gzip writer that compresses
   * it); `bytesSent` is its length unless writing failed, and the handler's
   * error never changes the status.
   */
  lemma VerbatimBody(cfg: Config, req: Request, preset: seq<Header>, resp: Response, err: Option<string>, writeErr: Option<string>)
    requires resp.body.Text? || resp.body.Raw?
    ensures var o := Handle(cfg, false, req, preset, Returned(resp, err), writeErr);
      var bytes := if resp.body.Text? then resp.body.text else resp.body.bytes;
      && o.wire.body == bytes
      && o.headers == preset + resp.headers
      && o.log.status == DefaultStatus(resp.status)
      && (writeErr.None? ==> o.log.bytesSent == |bytes| && o.log.message == Message(err))
      && (writeErr.Some? && bytes != [] && !o.wire.Gzipped? ==> o.log.bytesSent == 0 && o.log.message == Chain(err, "w.Write", writeErr.value))
  {
  }

  /**
   * A value the encoder cannot marshal: status 500, no body, the marshal
   * error appended to the handler's, one callstack, and a JSON content type.
   */
  lemma MarshalFailureAnswers500(cfg: Config, req: Request, preset: seq<Header>, resp: Response, err: Option<string>, writeErr: Option<string>)
    requires resp.body.Value? && Chosen(cfg, resp.body.compact, resp.body.indented).MarshalFailed?
    ensures var o := Handle(cfg, false, req, preset, Returned(resp, err), writeErr);
      var m := Chosen(cfg, resp.body.compact, resp.body.indented).message;
      && o.wire == Plain(StatusInternalServerError, [])
      && o.log.status == StatusInternalServerError && o.log.level == Error
      && o.log.message == Chain(err, "json.Marshal", m)
      && o.log.bytesSent == 0 && o.log.callstacks == 1
      && HasContentType(o.headers)
      && o.headers == WithJsonType(preset + resp.headers)
  {
  }

  /** A value that marshals is sent as its encoding under the handler's status; `FormatJSON` picks the encoder. */
  lemma MarshalledValue(cfg: Config, req: Request, preset: seq<Header>, resp: Response, err: Option<string>)
    requires resp.body.Value? && Chosen(cfg, resp.body.compact, resp.body.indented).Marshalled?
    ensures var o := Handle(cfg, false, req, preset, Returned(resp, err), None);
      var bytes := Chosen(cfg, resp.body.compact, resp.body.indented).bytes;
      && o.wire.body == bytes
      && (cfg.formatJson ==> bytes == resp.body.indented.bytes)
      && (!cfg.formatJson ==> bytes == resp.body.compact.bytes)
      && o.log.status == DefaultStatus(resp.status) && o.log.bytesSent == |bytes|
      && o.headers == WithJsonType(preset + resp.headers)
  {
  }

  /**
   * The body goes through the gzip writer exactly when it is at least 150
   * bytes, gzip is enabled, no `Content-Encoding` is set and the client
   * accepts gzip; otherwise the status is written with the raw body.
   */
  lemma CompressionGuard(cfg: Config, req: Request, preset: seq<Header>, resp: Response, err: Option<string>, writeErr: Option<string>)
    requires !resp.body.NoBody?
    ensures var o := Handle(cfg, false, req, preset, Returned(resp, err), writeErr);
      && (o.wire.Gzipped? <==> Compresses(cfg, req.acceptEncoding, o.headers, o.wire.body))
      && (o.wire.Gzipped? ==> |o.wire.body| >= MinGzipLength && !cfg.disableGzip && AcceptEncoding.AcceptsGzip(req.acceptEncoding))
  {
  }

  /**
   * The gzip branch never writes the status: a 404 with a long body to a
   * client that accepts gzip reaches the client as 200 while the log
   * records 404 at Warn.
   */
  lemma GzipBranchSendsNoStatus(cfg: Config, req: Request, resp: Response, err: Option<string>, writeErr: Option<string>)
    requires resp.status == 404 && resp.body.Text? && |resp.body.text| >= MinGzipLength
    requires !cfg.disableGzip && resp.headers == [] && AcceptEncoding.AcceptsGzip(req.acceptEncoding)
    ensures var o := Handle(cfg, false, req, [], Returned(resp, err), writeErr);
      && o.wire == Gzipped(resp.body.text)
      && SentStatus(o.wire) == StatusOK
      && o.log.status == 404 && o.log.level == Warn
  {
  }

  /** The handler's error never changes what is sent, only what is logged. */
  lemma HandlerErrorOnlyLogged(cfg: Config, req: Request, preset: seq<Header>, resp: Response, err1: Option<string>, err2: Option<string>, writeErr: Option<string>)
    ensures var o1 := Handle(cfg, false, req, preset, Returned(resp, err1), writeErr);
      var o2 := Handle(cfg, false, req, preset, Returned(resp, err2), writeErr);
      && o1.wire == o2.wire && o1.headers == o2.headers
      && o1.log.status == o2.log.status && o1.log.bytesSent == o2.log.bytesSent
  {
  }
}

=== FILE: error_stack.dfy ===
/**
 * fallbackLogger.go's `AddError`: the `err` field, then, when there are
 * frames, a `stacktrace` field listing them. The frames come either from the
 * error itself (an `*errorStack`) or from the current call stack, whose
 * first frame, `AddError`'s own, is dropped.
 */
module ErrorStack {
  import opened Maybe
  import opened Strings
  import opened LogLine

  datatype Frame = Frame(path: string, func: string, line: nat)

  /** The error passed in: its `%v` text, and its own frames when it carries a stack trace. */
  datatype Err = Err(text: string, stack: Option<seq<Frame>>)

  /** One frame as `path:func:line`. */
  function RenderFrame(f: Frame): (r: string)
    ensures HasPrefix(r, f.path + ":" + f.func + ":")
    ensures r[|f.path| + |f.func| + 2..] == Decimal(f.line)
  {
    f.path + ":" + f.func + ":" + Decimal(f.line)
  }

  function RenderFrames(st: seq<Frame>): (cs: seq<string>)
    ensures |cs| == |st|
    ensures forall i :: 0 <= i < |st| ==> cs[i] == RenderFrame(st[i])
  {
    seq(|st|, i requires 0 <= i < |st| => RenderFrame(st[i]))
  }

  /**
   * The frames `AddError` lists: the error's own, or the current stack
   * without its first frame; `None` when the current stack has fewer than two
   * frames, where `AddError` returns after the `err` field.
   */
  function StackFrames(err: Err, current: seq<Frame>): (st: Option<seq<Frame>>)
    ensures err.stack.Some? ==> st == err.stack
    ensures err.stack.None? ==> (st.None? <==> |current| < 2)
    ensures err.stack.None? && st.Some? ==> st.value == current[1..]
  {
    match err.stack
    case Some(own) => Some(own)
    case None => if |current| < 2 then None else Some(current[1..])
  }

  /** `AddError` on the accumulated fields `msg`. */
  function AddError(msg: string, err: Err, current: seq<Frame>): (r: string)
    ensures HasPrefix(r, AddField(msg, "err", err.text))
    ensures var st := StackFrames(err, current);
      (st.None? || st.value == []) <==> r == AddField(msg, "err", err.text)
    ensures var st := StackFrames(err, current);
      st.Some? && st.value != [] ==> HasSuffix(r, Field("stacktrace", Join(RenderFrames(st.value), ", ")))
  {
    var withErr := AddField(msg, "err", err.text);
    match StackFrames(err, current)
    case None => withErr
    case Some(st) =>
      if |st| > 0 then AddField(withErr, "stacktrace", Join(RenderFrames(st), ", ")) else withErr
  }

  /** The fields `AddError` adds, in order: `err` first, then `stacktrace` when there is a frame to list. */
  lemma AddErrorFieldOrder(msg: string, err: Err, current: seq<Frame>)
    ensures var st := StackFrames(err, current);
      var added := if st.Some? && st.value != [] then [("err", err.text), ("stacktrace", Join(RenderFrames(st.value), ", "))] else [("err", err.text)];
      AddError(msg, err, current) == AddAll(msg, added)
  {
    var st := StackFrames(err, current);
    var withErr := AddField(msg, "err", err.text);
    if st.Some? && st.value != [] {
      var trace := Join(RenderFrames(st.value), ", ");
      var added := [("err", err.text), ("stacktrace", trace)];
      assert added[1..] == [("stacktrace", trace)] && added[1..][1..] == [];
      assert AddAll(withErr, added[1..]) == AddAll(AddField(withErr, "stacktrace", trace), []);
      assert AddAll(msg, added) == AddAll(withErr, added[1..]);
    } else {
      assert [("err", err.text)][1..] == [];
    }
  }

  /** Without its own stack and with fewer than two current frames, `AddError` adds the `err` field alone. */
  lemma ErrOnly(msg: string, text: string, current: seq<Frame>)
    requires |current| < 2
    ensures AddError(msg, Err(text, None), current) == AddField(msg, "err", text)
  {
  }

  /**
   * An error without its own stack, logged with `Error(word)`, prints only its
   * `err` field after the text exactly when the current stack has fewer than
   * two frames; with more, a `stacktrace` field follows.
   */
  lemma PlainErrorLine(text: string, word: string, current: seq<Frame>, sprintf: (string, seq<string>) -> string)
    ensures Line(Args(Error, [word]), sprintf, AddError([], Err(text, None), current)) == "[error] " + word + " err=\"" + text + "\""
      <==> |current| < 2
  {
    SprintOne(word);
    ErrorLineShape(word, text);
    if |current| < 2 {
      ErrOnly([], text, current);
    } else {
      TraceLengthens(text, current);
    }
  }

  /** With two or more current frames, a plain error's fields run past its `err` field. */
  lemma TraceLengthens(text: string, current: seq<Frame>)
    requires |current| >= 2
    ensures |AddError([], Err(text, None), current)| > |Field("err", text)|
  {
    var r := AddError([], Err(text, None), current);
    assert StackFrames(Err(text, None), current) == Some(current[1..]);
    assert r != AddField([], "err", text);
  }

  lemma SprintOne(word: string)
    ensures Sprint([word]) == word
  {
    assert Sprint([word]) == word + Sprint([]);
  }

  lemma ErrorLineShape(word: string, text: string)
    ensures Write(Error, word, Field("err", text)) == "[error] " + word + " err=\"" + text + "\""
  {
    assert Write(Error, word, Field("err", text)) == "[" + "error" + "] " + word + " " + ("err" + "=\"" + text + "\"");
  }

  /**
   * The case `TestAddError` checks: `io.EOF` logged with `Error("whoops")`
   * prints `[error] whoops err="EOF"` exactly when the stack the error
   * helper sees has fewer than two frames.
   */
  lemma EofErrorLine(current: seq<Frame>, sprintf: (string, seq<string>) -> string)
    ensures Line(Args(Error, ["whoops"]), sprintf, AddError([], Err("EOF", None), current)) == "[error] whoops err=\"EOF\""
      <==> |current| < 2
  {
    EofErrorLineOf("[error] whoops err=\"EOF\"", "whoops", "EOF", current, sprintf);
  }

  lemma EofErrorLineOf(want: string, word: string, text: string, current: seq<Frame>, sprintf: (string, seq<string>) -> string)
    requires word == "whoops" && text == "EOF" && want == "[error] whoops err=\"EOF\""
    ensures Line(Args(Error, [word]), sprintf, AddError([], Err(text, None), current)) == want <==> |current| < 2
  {
    PlainErrorLine(text, word, current, sprintf);
    EofText(want, word, text);
  }

  lemma EofText(want: string, word: string, text: string)
    requires word == "whoops" && text == "EOF" && want == "[error] whoops err=\"EOF\""
    ensures "[error] " + word + " err=\"" + text + "\"" == want
  {
  }

}

=== FILE: log_line.dfy ===
/**
 * The line a fallback logger builds: the `key="value"` fields accumulated by
 * `AddField` and `AddFields`, and the `[level] text fields` line of `Write`.
 * fallbackLogger.go and fallback_logger.go define these members with the same
 * text, except that `Write` prints through `logPrint` in one and `log.Print`
 * in the other. Both hand the line to Go's `log` package (`logPrint` is
 * `log.Print` unless a test replaces it), so one module models the line both
 * build; the `log` package's own prefix and newline are not part of it.
 */
module LogLine {
  import opened Maybe
  import opened Strings

  /** The three levels of the `Entry` interface. */
  datatype Level = Info | Warn | Error

  /** The name `Write` prints between the brackets. */
  function LevelName(l: Level): (name: string)
    ensures name != [] && ']' !in name
  {
    match l
    case Info => "info"
    case Warn => "warn"
    case Error => "error"
  }

  /** One field as `fmt.Sprintf("%s=\"%v\"", key, value)` renders it, with the value already in its `%v` form. */
  function Field(key: string, value: string): (f: string)
    ensures |f| == |key| + |value| + 3
    ensures HasPrefix(f, key + "=\"") && f[|f| - 1] == '"'
    ensures f[|key| + 2..|f| - 1] == value
  {
    key + "=\"" + value + "\""
  }

  /**
   * `AddField`: the new field goes after the accumulated ones, separated by
   * exactly one space, and the first field gets no leading space.
   */
  function AddField(msg: string, key: string, value: string): (r: string)
    ensures HasPrefix(r, msg)
    ensures HasSuffix(r, Field(key, value))
    ensures |r| == |msg| + |Field(key, value)| + (if msg == [] then 0 else 1)
    ensures msg != [] ==> r[|msg|] == ' '
  {
    if msg == [] then Field(key, value) else msg + " " + Field(key, value)
  }

  /** `AddField` applied to each (key, value) pair in turn. */
  function AddAll(msg: string, fields: seq<(string, string)>): (r: string)
    decreases |fields|
  {
    if fields == [] then msg else AddAll(AddField(msg, fields[0].0, fields[0].1), fields[1..])
  }

  /** The rendered fields of a list of pairs, in order. */
  function Fields(fields: seq<(string, string)>): (fs: seq<string>)
    ensures |fs| == |fields|
    ensures forall i :: 0 <= i < |fields| ==> fs[i] == Field(fields[i].0, fields[i].1)
  {
    seq(|fields|, i requires 0 <= i < |fields| => Field(fields[i].0, fields[i].1))
  }

  /** Accumulation only appends: every earlier state is a prefix of every later one. */
  lemma {:induction false} AddAllAppends(msg: string, fields: seq<(string, string)>)
    ensures HasPrefix(AddAll(msg, fields), msg)
    decreases |fields|
  {
    if fields != [] {
      var m := AddField(msg, fields[0].0, fields[0].1);
      AddAllAppends(m, fields[1..]);
    }
  }

  /** Adding fields to an empty entry gives the rendered fields joined by single spaces. */
  lemma {:induction false} AddAllIsJoin(fields: seq<(string, string)>)
    ensures AddAll([], fields) == Join(Fields(fields), " ")
    decreases |fields|
  {
    if fields != [] {
      AddAllIsJoinFrom(Field(fields[0].0, fields[0].1), [Field(fields[0].0, fields[0].1)], fields[1..]);
      assert Fields(fields) == [Field(fields[0].0, fields[0].1)] + Fields(fields[1..]);
    }
  }

  /** The generalisation `AddAllIsJoin` needs: a non-empty start joined with the rendered rest. */
  lemma {:induction false} AddAllIsJoinFrom(msg: string, done: seq<string>, fields: seq<(string, string)>)
    requires done != [] && msg != [] && msg == Join(done, " ")
    ensures AddAll(msg, fields) == Join(done + Fields(fields), " ")
    decreases |fields|
  {
    if fields == [] {
      assert done + Fields(fields) == done;
    } else {
      var f := Field(fields[0].0, fields[0].1);
      AddAllHead(msg, fields);
      JoinSnoc(done, f, " ");
      FieldsCons(done, fields);
      AddAllIsJoinFrom(msg + " " + f, done + [f], fields[1..]);
    }
  }

  /** On a non-empty message, the first pending field is appended after one space. */
  lemma AddAllHead(msg: string, fields: seq<(string, string)>)
    requires msg != [] && fields != []
    ensures AddAll(msg, fields) == AddAll(msg + " " + Field(fields[0].0, fields[0].1), fields[1..])
  {
    assert AddField(msg, fields[0].0, fields[0].1) == msg + " " + Field(fields[0].0, fields[0].1);
  }

  /** Moving the first rendered field onto the already-joined list leaves the concatenation unchanged. */
  lemma FieldsCons(done: seq<string>, fields: seq<(string, string)>)
    requires fields != []
    ensures done + Fields(fields) == (done + [Field(fields[0].0, fields[0].1)]) + Fields(fields[1..])
  {
    var f := Field(fields[0].0, fields[0].1);
    assert Fields(fields) == [f] + Fields(fields[1..]);
    ConcatAssoc(done, [f], Fields(fields[1..]));
  }

  /** `order` lists every key of `m` exactly once: one of the orders Go's map iteration may take. */
  predicate IsEnumeration(order: seq<string>, m: map<string, string>) {
    && (forall i, j :: 0 <= i < j < |order| ==> order[i] != order[j])
    && (forall k :: k in m ==> k in order)
    && (forall i :: 0 <= i < |order| ==> order[i] in m)
  }

  /** The (key, value) pairs `AddFields` visits, in iteration order. */
  function Entries(m: map<string, string>, order: seq<string>): (es: seq<(string, string)>)
    requires IsEnumeration(order, m)
    ensures |es| == |order|
    ensures forall i :: 0 <= i < |es| ==> es[i].0 in m && es[i].1 == m[es[i].0]
    ensures forall k :: k in m <==> exists i :: 0 <= i < |es| && es[i].0 == k
    ensures forall i, j :: 0 <= i < j < |es| ==> es[i].0 != es[j].0
  {
    var es := seq(|order|, i requires 0 <= i < |order| => (order[i], m[order[i]]));
    assert forall k :: k in m ==> exists i :: 0 <= i < |es| && es[i].0 == k by {
      forall k | k in m
        ensures exists i :: 0 <= i < |es| && es[i].0 == k
      {
        var i :| 0 <= i < |order| && order[i] == k;
        assert es[i].0 == k;
      }
    }
    es
  }

  /**
   * `AddFields`: every entry of the map is added exactly once, in the
   * (unspecified) iteration order `order`.
   */
  function AddFields(msg: string, m: map<string, string>, order: seq<string>): (r: string)
    requires IsEnumeration(order, m)
    ensures msg == [] ==> r == Join(Fields(Entries(m, order)), " ")
    ensures msg != [] ==> r == Join([msg] + Fields(Entries(m, order)), " ")
  {
    var es := Entries(m, order);
    if msg == [] then
      AddAllIsJoin(es); AddAll(msg, es)
    else
      AddAllIsJoinFrom(msg, [msg], es); AddAll(msg, es)
  }

  /** An argument list rendered by `fmt.Sprint`, where every argument is a string: their concatenation. */
  function Sprint(args: seq<string>): (r: string)
    ensures |r| == SumLengths(args)
    ensures r == Join(args, "")
    decreases |args|
  {
    if args == [] then []
    else
      assert |args| > 1 ==> Join(args, "") == args[0] + "" + Join(args[1..], "");
      assert args[0] + "" == args[0];
      args[0] + Sprint(args[1..])
  }

  function SumLengths(args: seq<string>): nat
    decreases |args|
  {
    if args == [] then 0 else |args[0]| + SumLengths(args[1..])
  }

  /** A call on the logger: `Info`/`Warn`/`Error` take arguments, `Infof`/`Warnf`/`Errorf` a format too. */
  datatype Call = Args(level: Level, args: seq<string>) | Formatted(level: Level, format: string, args: seq<string>)

  /**
   * The text of a call: `Write` formats with the format string when it is
   * non-empty (through `sprintf`, standing in for `fmt.Sprintf`) and
   * otherwise concatenates the arguments.
   */
  function Text(call: Call, sprintf: (string, seq<string>) -> string): string {
    match call
    case Args(_, args) => Sprint(args)
    case Formatted(_, format, args) => if format != [] then sprintf(format, args) else Sprint(args)
  }

  /** `Write`: `[level] `, the text, one space, then the accumulated fields, which are left as they were. */
  function Write(level: Level, text: string, fields: string): (line: string)
    ensures HasPrefix(line, "[" + LevelName(level) + "] ")
    ensures HasSuffix(line, " " + fields)
    ensures |line| == |LevelName(level)| + |text| + |fields| + 4
  {
    "[" + LevelName(level) + "] " + text + " " + fields
  }

  /** The line a logger call prints for the accumulated fields `fields`. */
  function Line(call: Call, sprintf: (string, seq<string>) -> string, fields: string): string {
    Write(call.level, Text(call, sprintf), fields)
  }

  /** Every line keeps the accumulated fields at its end and carries the call's level where it can be read back. */
  lemma LineKeepsLevelAndFields(call: Call, sprintf: (string, seq<string>) -> string, fields: string)
    ensures HasSuffix(Line(call, sprintf, fields), fields)
    ensures ParseLevel(Line(call, sprintf, fields)) == Some(call.level)
  {
    WriteLevelRoundTrip(call.level, Text(call, sprintf), fields);
  }

  /** Reads the level back from the front of a line: the name between `[` and the first `]`. */
  function ParseLevel(line: string): (r: Option<Level>) {
    if HasPrefix(line, "[info] ") then Some(Info)
    else if HasPrefix(line, "[warn] ") then Some(Warn)
    else if HasPrefix(line, "[error] ") then Some(Error)
    else None
  }

  /** The level and the text a line was written with can be read back from it. */
  lemma WriteLevelRoundTrip(level: Level, text: string, fields: string)
    ensures ParseLevel(Write(level, text, fields)) == Some(level)
    ensures var line := Write(level, text, fields);
      line[|LevelName(level)| + 3..|line| - |fields| - 1] == text
  {
    var line := Write(level, text, fields);
    assert line == "[" + LevelName(level) + "] " + text + " " + fields;
    assert line[..|LevelName(level)| + 3] == "[" + LevelName(level) + "] ";
    match level
    case Info =>
    case Warn =>
      assert line[1] == 'w';
    case Error =>
      assert line[1] == 'e';
  }

  /** An `*f` call with an empty format prints exactly what the plain call prints. */
  lemma EmptyFormatIsPlain(level: Level, args: seq<string>, sprintf: (string, seq<string>) -> string, fields: string)
    ensures Line(Formatted(level, [], args), sprintf, fields) == Line(Args(level, args), sprintf, fields)
    ensures Text(Args(level, args), sprintf) == Sprint(args)
  {
  }
}

=== FILE: logrjack.dfy ===
/**
 * The logrjack `entry` of vendor/github.com/judwhite/logrjack/entry.go: its
 * fields are a map (logrus' `Fields`), so adding a field replaces any
 * earlier value under that key. Its `getCaller` and the walk of
 * `AddCallstack` have the same text as fallback_logger.go's and are modelled
 * once, in `Callers`.
 */
module Logrjack {
  import opened Strings
  import Callers

  type Fields = map<string, string>

  /** `AddField`: `key` now maps to `value`; every other key keeps its value. */
  function AddField(fields: Fields, key: string, value: string): (r: Fields)
    ensures key in r && r[key] == value
    ensures forall k :: k != key ==> (k in r <==> k in fields)
    ensures forall k :: k != key && k in fields ==> r[k] == fields[k]
  {
    fields[key := value]
  }

  /** `AddFields`: the added map's entries win; the other existing entries stay. */
  function AddFields(fields: Fields, added: Fields): (r: Fields)
    ensures forall k :: k in r <==> k in fields || k in added
    ensures forall k :: k in added ==> r[k] == added[k]
    ensures forall k :: k in fields && k !in added ==> r[k] == fields[k]
  {
    fields + added
  }

  /** `AddCallstack`: the joined `file:line` entries under `callstack`. */
  function AddCallstack(fields: Fields, frames: seq<Callers.Lookup>): (r: Fields)
    ensures "callstack" in r && r["callstack"] == Callers.Callstack(frames)
    ensures forall k :: k != "callstack" ==> (k in r <==> k in fields)
    ensures forall k :: k != "callstack" && k in fields ==> r[k] == fields[k]
  {
    AddField(fields, "callstack", Callers.Callstack(frames))
  }

  /** A single field added through `AddFields` is the same as through `AddField`. */
  lemma AddFieldsOfOne(fields: Fields, key: string, value: string)
    ensures AddFields(fields, map[key := value]) == AddField(fields, key, value)
  {
  }

  /** The test's file passes `AddCallstack`'s filter. */
  lemma TestFileKept()
    ensures !Callers.Dropped("logrjack/entry_test.go") && "logrjack/entry_test.go" != Callers.UnknownFile
  {
    var short := "logrjack/entry_test.go";
    assert short[|short| - 2..] == "go";
    assert short[..14] != "http/server.go" by { assert short[0] == 'l'; }
    assert short[..15] != "runtime/proc.go" by { assert short[0] == 'l'; }
    assert short[0] != '?';
  }

  /** `getCaller` reports the test's frame as `logrjack/entry_test.go`, line 13. */
  lemma TestPathShortened(l: Callers.Lookup, p: string, dir: string, name: string) returns (short: string)
    requires p != [] && dir == "logrjack" && name == "entry_test.go"
    requires l == Callers.Found(p + "/" + dir + "/" + name, 13)
    ensures short == "logrjack/entry_test.go" && Callers.GetCaller(l) == (short, 13)
  {
    short := dir + "/" + name;
    Callers.ShortenKeepsLastTwo(p, dir, name);
  }

  lemma TestEntryRendered()
    ensures Callers.Render("logrjack/entry_test.go", 13) == "logrjack/entry_test.go:13"
  {
    assert Decimal(13) == "13" by { assert Decimal(1) == "1"; }
  }

  /** Line 13 of a path ending in `logrjack/entry_test.go` is kept as `logrjack/entry_test.go:13`. */
  lemma TestFrameKept(l: Callers.Lookup, p: string, dir: string, name: string)
    requires p != [] && dir == "logrjack" && name == "entry_test.go"
    requires l == Callers.Found(p + "/" + dir + "/" + name, 13)
    ensures Callers.Classify(l) == Callers.Keep("logrjack/entry_test.go:13")
  {
    var short := TestPathShortened(l, p, dir, name);
    TestFileKept();
    TestEntryRendered();
    Callers.ClassifyFollowsFilter(l);
  }

  /**
   * What `TestAddCallstack` looks for: when the first frame is line 13 of a
   * path ending in `logrjack/entry_test.go`, the callstack starts with
   * `logrjack/entry_test.go:13`.
   */
  lemma CallstackStartsAtTest(fields: Fields, frames: seq<Callers.Lookup>, p: string, dir: string, name: string)
    requires p != [] && dir == "logrjack" && name == "entry_test.go"
    requires frames != [] && frames[0] == Callers.Found(p + "/" + dir + "/" + name, 13)
    ensures HasPrefix(AddCallstack(fields, frames)["callstack"], "logrjack/entry_test.go:13")
  {
    TestFrameKept(frames[0], p, dir, name);
    Callers.CallstackStartsWith(frames, "logrjack/entry_test.go:13");
  }
}

=== FILE: strings.dfy ===
/** Optional values, standing in for Go's nil-able `error` and for lookups that may fail. */
module Maybe {

  datatype Option<+T> = None | Some(value: T)
}

/**
 * The pieces of Go's `strings` and `fmt` packages the model needs. A Go string
 * is a byte sequence; here it is a `seq<char>` read one character per byte, so
 * the model is exact for ASCII text.
 */
module Strings {

  /**
   * The single bytes `strings.TrimSpace` removes: the ASCII white space of
   * `unicode.IsSpace`. A lone byte from 0x80 up is not a space in Go (it does
   * not decode to a space rune), so no other `char` is.
   */
  predicate IsSpace(c: char) {
    c == ' ' || c == '\t' || c == '\n' || c == '\r' || c == '\U{B}' || c == '\U{C}'
  }

  /** Drops leading white space. */
  function TrimLeft(s: string): (r: string)
    ensures |r| <= |s| && r == s[|s| - |r|..]
    ensures forall i :: 0 <= i < |s| - |r| ==> IsSpace(s[i])
    ensures r == [] || !IsSpace(r[0])
    decreases |s|
  {
    if |s| > 0 && IsSpace(s[0]) then TrimLeft(s[1..]) else s
  }

  /** Drops trailing white space. */
  function TrimRight(s: string): (r: string)
    ensures |r| <= |s| && r == s[..|r|]
    ensures forall i :: |r| <= i < |s| ==> IsSpace(s[i])
    ensures r == [] || !IsSpace(r[|r| - 1])
    decreases |s|
  {
    if |s| > 0 && IsSpace(s[|s| - 1]) then TrimRight(s[..|s| - 1]) else s
  }

  /** Go's `strings.TrimSpace`: a slice of `s` that starts and ends with a non-space. */
  function TrimSpace(s: string): (r: string)
    ensures r == [] || (!IsSpace(r[0]) && !IsSpace(r[|r| - 1]))
    ensures r == [] <==> forall i :: 0 <= i < |s| ==> IsSpace(s[i])
    ensures exists a :: TrimmedAt(s, a, r)
  {
    var l := TrimLeft(s);
    var r := TrimRight(l);
    assert r != [] ==> r[0] == l[0];
    assert r == [] ==> l == [];
    assert TrimmedAt(s, |s| - |l|, r);
    r
  }

  /** `r` is `s` with white space only removed from its two ends: it sits at offset `a`, with only spaces around it. */
  predicate TrimmedAt(s: string, a: int, r: string) {
    && 0 <= a && a + |r| <= |s| && r == s[a..a + |r|]
    && (forall i :: 0 <= i < a ==> IsSpace(s[i]))
    && (forall i :: a + |r| <= i < |s| ==> IsSpace(s[i]))
  }

  /** Trimming is idempotent: a trimmed string has nothing left to trim. */
  lemma TrimSpaceIdempotent(s: string)
    ensures TrimSpace(TrimSpace(s)) == TrimSpace(s)
  {
    var t := TrimSpace(s);
    assert TrimLeft(t) == t;
    assert TrimRight(t) == t;
  }

  /** A string that neither starts nor ends with white space is its own trim. */
  lemma TrimSpaceOfTrimmed(s: string)
    requires s == [] || (!IsSpace(s[0]) && !IsSpace(s[|s| - 1]))
    ensures TrimSpace(s) == s
  {
    assert TrimLeft(s) == s;
    assert TrimRight(s) == s;
  }

  /** Go's `strings.HasPrefix`, for any sequence. */
  predicate HasPrefix<T(==)>(s: seq<T>, prefix: seq<T>) {
    |prefix| <= |s| && s[..|prefix|] == prefix
  }

  /** Go's `strings.HasSuffix`, for any sequence. */
  predicate HasSuffix<T(==)>(s: seq<T>, suffix: seq<T>) {
    |suffix| <= |s| && s[|s| - |suffix|..] == suffix
  }

  lemma ConcatAssoc<T>(a: seq<T>, b: seq<T>, c: seq<T>)
    ensures a + b + c == a + (b + c)
  {
  }

  /** Go's `strings.Join`: the parts in order, `sep` between neighbours. */
  function Join(parts: seq<string>, sep: string): string {
    if parts == [] then []
    else if |parts| == 1 then parts[0]
    else parts[0] + sep + Join(parts[1..], sep)
  }

  /** Joining a part in front of a non-empty list puts one separator between them. */
  lemma JoinCons(p: string, parts: seq<string>, sep: string)
    requires parts != []
    ensures Join([p] + parts, sep) == p + sep + Join(parts, sep)
  {
    assert ([p] + parts)[1..] == parts;
  }

  /** Joining a list extended by one part appends a separator and that part. */
  lemma {:induction false} JoinSnoc(parts: seq<string>, p: string, sep: string)
    requires parts != []
    ensures Join(parts + [p], sep) == Join(parts, sep) + sep + p
    decreases |parts|
  {
    if |parts| == 1 {
      assert parts + [p] == [parts[0], p];
    } else {
      assert (parts + [p])[1..] == parts[1..] + [p];
      JoinSnoc(parts[1..], p, sep);
    }
  }

  function DigitChar(d: nat): (c: char)
    requires d < 10
    ensures '0' <= c <= '9'
  {
    ['0', '1', '2', '3', '4', '5', '6', '7', '8', '9'][d]
  }

  function DigitValue(c: char): (d: nat)
    ensures d < 10
  {
    if '0' <= c <= '9' then (c as int - '0' as int) else 0
  }

  /** Go's `%d` of a non-negative integer: its decimal digits, no leading zero. */
  function Decimal(n: nat): (r: string)
    ensures |r| >= 1
    ensures forall i :: 0 <= i < |r| ==> '0' <= r[i] <= '9'
    ensures |r| > 1 ==> r[0] != '0'
  {
    if n < 10 then [DigitChar(n)] else Decimal(n / 10) + [DigitChar(n % 10)]
  }

  /** Reads a string of decimal digits back as a number. */
  function ParseDecimal(s: string): nat
    decreases |s|
  {
    if s == [] then 0 else 10 * ParseDecimal(s[..|s| - 1]) + DigitValue(s[|s| - 1])
  }

  lemma DigitRoundTrip(d: nat)
    requires d < 10
    ensures DigitValue(DigitChar(d)) == d
  {
  }

  /** `Decimal` is injective: reading its output back gives the number. */
  lemma {:induction false} DecimalRoundTrip(n: nat)
    ensures ParseDecimal(Decimal(n)) == n
    decreases n
  {
    DigitRoundTrip(n % 10);
    if n < 10 {
      assert Decimal(n) == [DigitChar(n)];
      assert ParseDecimal(Decimal(n)) == 10 * ParseDecimal([]) + DigitValue(DigitChar(n));
    } else {
      var r := Decimal(n);
      assert r[..|r| - 1] == Decimal(n / 10);
      DecimalRoundTrip(n / 10);
    }
  }
}
